=== FILE: README.md ===
# easy_aplpy plotting helpers: a Dafny model

This project models the decision logic inside the easy_aplpy plotting helpers.
The FITS header is a finite map from keyword to value. The filesystem is a map from path to image. Python exceptions are variants of an `Error` datatype carried in a `Result`. All arithmetic is done on exact reals and unbounded integers.

What is modelled:

- **Image type** (`_check_image_type`). An image is a pV diagram exactly when some `ctype` is an offset or position axis.
- **Channel/physical conversion** (`_channel_physical`). This covers the scan for the last spectral axis, and reading `crval`, `cdelt` and a truncated `crpix`. It also covers the linear relation in both directions and the error cases. The conversion the grid uses is the code as written: a header without a spectral axis raises `UnboundLocalError('freqax')`. A second version raises the intended `TypeError` instead.
- **Grid layout** (`_grid_panels`). Each channel gets one map panel, in row-major order. The model covers each panel's position tag, corner and size, and the optional trailing colorbar panel. It also covers the order of the errors. The eager `bunit` lookup comes first. Then, for each channel, come the `ZeroDivisionError` of `idx % ncols`, the conversion errors, and the `ZeroDivisionError` of `panels_height / nrows`. The unbound `idx` of a 'last panel' colorbar comes last.
- **Argument checks**:
  - the recenter format and the pV four-entry rule (`_test_recenter_format`, `_recenter_plot`);
  - the contour-spec dispatch by length and element type, with the legend check (`_show_contours`).
- **Panel labels** (`_format_grid_ticksNlabels`). A panel shows y labels when its tag contains `left` and x labels when it contains `bottom`.
- **Default output name** (`_save_figure`). It is the file name with its extension cut off, as POSIX `os.path.splitext` cuts it, plus `.png`.
- **Velocity correction** (`m_to_km`). This covers:
  - pairing `pv` with `out`;
  - choosing the target file: in place, `out`, or `<pv>.corrected`;
  - copying, then the header rewrite: `cdelt2` and `crval2` divided by 1e6, `cunit2` set to `km/s`;
  - the unit branch;
  - running the jobs in order, stopping at the first error.

Modules, one per file:

- `Fits`: header, values, errors, indexed axis reads.
- `PyNumeric`: Python's `int()`, `np.ceil` and float `%`.
- `ImageType`, `Spectral`, `Position`, `Grid`, `Recenter`, `Contours`, `SaveFigure`: the plotting helpers.
- `VelocityFix`: `m_to_km`.

## Model

| member | source | states |
|---|---|---|
| Fits.AxisCount | plot/_helpers.py:66 | `naxis` is read from the header; a missing card raises `KeyError('naxis')` |
| Fits.ReadAxes | plot/_helpers.py:40 | reading `<kw>1`..`<kw>n` in axis order succeeds iff every card is present, returns each axis's value at its position, and otherwise raises `KeyError` for the first missing axis |
| Fits.Collect | plot/_helpers.py:122-140 | a loop of steps succeeds iff every step does, giving every step's value in order; otherwise it raises the error of the first failing step |
| ImageType.CheckImageType | plot/_helpers.py:38-45 | succeeds iff `naxis` and every `ctype` are present; the type is pV iff some `ctype` is OFFSET/offset/POSITION/position, otherwise pp; a missing card raises `KeyError` for the first one missing |
| PyNumeric.Trunc | plot/_helpers.py:75 | `int()` truncates toward zero: the result is within one of `x`, on the side of zero |
| PyNumeric.Ceil | plot/_helpers.py:134 | `np.ceil` gives the least integer not below `x` |
| PyNumeric.FloorMod | plot/_helpers.py:124 | Python's `%` leaves a remainder of `a` modulo `b` that has the sign of `b` and is smaller than `b` in magnitude |
| PyNumeric.TruncOfInteger | plot/_helpers.py:81 | truncating an integral value gives that integer back |
| PyNumeric.FloorModPositive | plot/_helpers.py:124 | for a positive column count Python's remainder is the Euclidean one |
| PyNumeric.CeilOfNextIndex | plot/_helpers.py:134 | `ceil((idx+1)/n)` is the 1-based row `idx div n + 1` of a row-major index |
| Spectral.LastSpectral | plot/_helpers.py:68-70 | the loop leaves `freqax` at the last axis whose unit is m/s, km/s, Hz, kHz, MHz or GHz, and finds none iff no unit is one of them |
| Spectral.ScanSpectralAxis | plot/_helpers.py:66-70 | A missing `naxis` raises `KeyError('naxis')`, and a non-integer one `ValueError`. The scan then reads every `cunit`, and a missing one raises `KeyError` for the first absent axis. It reports the last spectral axis, or that there is none |
| Spectral.DegreeAxisScan | plot/_helpers.py:66-70 | a header whose only axis has unit `deg` has no spectral axis, whatever other cards it holds |
| Spectral.SpectralAxisAsWritten | plot/_helpers.py:68-72 | as written: the scan's error is raised, a found axis is returned, and a header without a spectral axis raises `UnboundLocalError('freqax')` |
| Spectral.SpectralAxis | plot/_helpers.py:68-72 | as intended: the scan's error is raised, a found axis is returned, and the `TypeError` is raised exactly when no axis is spectral |
| Spectral.MissingSpectralAxisIsUnbound | plot/_helpers.py:68-72 | no header makes the as-written code raise the `TypeError` of line 72; without a spectral axis it raises `UnboundLocalError` where the intended code raises `TypeError` |
| Spectral.DegreeAxisRaisesUnbound | plot/_helpers.py:68-72 | for a one-axis header in degrees, the as-written scan and channel conversion raise `UnboundLocalError('freqax')`; the intended conversion raises `TypeError` |
| Spectral.ReadSpectralWcs | plot/_helpers.py:68-75 | The read succeeds iff the spectral axis is found and its `crval`, `cdelt` and `crpix` are present and numeric. The WCS is that axis, with its unit, `crval`, `cdelt` and `crpix` truncated toward zero. An axis-search error is raised as is; then a missing `crval`, `cdelt` or `crpix` raises `KeyError` for the first one missing, in that order |
| Spectral.PixelOfWorldOf | plot/_helpers.py:79-81 | the pixel formula inverts the world formula when `cdelt` is non-zero |
| Spectral.Convert | plot/_helpers.py:77-84 | an integer channel is kept and mapped to `(ch-crpix)*cdelt+crval`; a physical value is kept and mapped to `trunc((v-crval)/cdelt+crpix)`; a zero `cdelt` raises `ValueError` or `OverflowError`; any other argument raises `TypeError` |
| Spectral.ChannelPhysical | plot/_helpers.py:64-84 | as written: the header is read before the argument is examined, so a header error, including the `UnboundLocalError` of a header without a spectral axis, wins over a bad argument; otherwise the conversion of the argument |
| Spectral.ChannelPhysicalIntended | plot/_helpers.py:64-84 | the same conversion with the intended `TypeError` for a header without a spectral axis |
| Spectral.ChannelPhysicalVersions | plot/_helpers.py:68-72 | the two conversions agree on every header that has a spectral axis or fails the scan; without a spectral axis one raises `UnboundLocalError`, the other `TypeError` |
| Spectral.ChannelRoundTrip | plot/_helpers.py:77-82 | with a non-zero `cdelt`, channel -> physical -> channel gives back the same channel and physical value |
| Spectral.PhysicalRoundTripWithinOneChannel | plot/_helpers.py:77-82 | physical -> channel -> physical lands within one `|cdelt|` of the value given |
| Spectral.ConvertWithinOneChannel | plot/_helpers.py:79-81 | the world value of the truncated pixel differs from the given value by less than one increment |
| Position.TagContents | plot/_helpers.py:123-127 | the tag built from `left`/`bottom` contains `'left'` iff the left flag is set and `'bottom'` iff the bottom flag is set |
| Position.FormatGridLabels | plot/_helpers.py:416-431 | a tag built from flags (left, bottom) shows y labels iff left and x labels iff bottom; a panel without a tag raises `TypeError` |
| Grid.MapPanelAt | plot/_helpers.py:122-140 | panel `idx` exists iff both counts are non-zero and the channel converts. It is a map panel numbered `idx` out of `ncols*nrows`, carries the channel's conversion, and has the cell of `idx`. Its tag is `''`, `'left'`, `'bottom'` or `'leftbottom'`, built in that order, and contains `left` iff `idx % ncols == 0` and `bottom` iff `idx >= (nrows-1)*ncols`. A zero column count raises `ZeroDivisionError` before the conversion; a conversion error is raised next; a zero row count after a successful conversion raises `ZeroDivisionError` |
| Grid.MapPanels | plot/_helpers.py:122 | one attempted map panel per channel, indexed by its position in the list |
| Grid.ColorbarPanelAfter | plot/_helpers.py:144-155 | the colorbar record is numbered after index `idx` out of `ncols*nrows`, names the FITS file, has no tag, channel or physical value, and has `idx`'s corner and size |
| Grid.GridPanels | plot/_helpers.py:112-156 | The grid succeeds iff `bunit` exists, every map panel builds, and a 'last panel' colorbar has a channel before it. It holds exactly one map panel per channel in input order, plus one colorbar panel iff the colorbar is 'last panel'. A missing `bunit` raises `KeyError` whatever the colorbar; 'last panel' with no channels raises `UnboundLocalError('idx')`. When a map panel fails, the grid raises the error of the first channel whose panel fails |
| Grid.DegreeGridRaisesUnbound | plot/_helpers.py:112-128 | a one-channel grid of a cube whose only axis is in degrees raises `UnboundLocalError('freqax')` |
| Grid.GridMapPanels | plot/_helpers.py:122-140 | when `bunit` exists and every map panel builds, each map panel of the grid is numbered by its index, carries its channel's conversion, is tagged `left`/`bottom` by column/row, and shows y/x labels accordingly |
| Grid.GridColorbarPanel | plot/_helpers.py:142-155 | when `bunit` exists, every map panel builds and a 'last panel' colorbar follows at least one channel, the colorbar panel repeats the last map panel's corner and size, is numbered one past it, and a label query on it raises `TypeError` |
| Grid.TagIsDetermined | plot/_helpers.py:123-127 | a position tag is determined by which of `left`/`bottom` it contains |
| Grid.PanelGeometry | plot/_helpers.py:119-136 | width is `(1-m0-m1)/ncols` and height `(1-m2-m3)/nrows`; `x = m0 + (idx mod ncols)*width`; `y = (1-m2) - (idx div ncols + 1)*height` |
| Grid.PanelInsideMargins | plot/_helpers.py:119-136 | for an index inside the grid and non-negative margins leaving room, the panel lies within `[m0, 1-m1] x [m3, 1-m2]` |
| Grid.ColumnInsideMargins | plot/_helpers.py:133-135 | for a positive column count and non-negative left/right margins leaving room, a panel spans horizontally within `[m0, 1-m1]` |
| Grid.RowInsideMargins | plot/_helpers.py:134-136 | for an index inside the grid and non-negative top/bottom margins leaving room, a panel spans vertically within `[m3, 1-m2]` |
| Recenter.TestRecenterFormat | plot/_helpers.py:191-199 | accepts exactly two or three entries with a SkyCoord first and quantities after; each violation raises its own `TypeError`, checked in the order length, position, sizes |
| Recenter.RecenterPlot | plot/_helpers.py:171-188 | a pp image zooms on a circle (2 entries) or box (3) iff the format check passes, else raises its error; a pV image needs exactly 4 entries, else `TypeError`; no recenter, or neither type, does nothing |
| Contours.DispatchContour | plot/_helpers.py:214-227 | A spec is accepted iff it has length 3, or length 4 with an int second element or a dict last element, or length 5 with a mapping last element. Each accepted shape selects its own call, and an int second element wins at length 4. Each rejected shape raises its own `TypeError`: a wrong length, an uninterpretable four-element spec, or a five-element spec whose last element is not a mapping |
| Contours.LegendCheck | plot/_helpers.py:229-235 | without a legend, or with `True`, the check passes; a list needs a name for the contour's index (else `IndexError`); any other value raises `TypeError` |
| Contours.LevelsPosition | plot/_helpers.py:214-225 | the levels are the third element exactly in the sliced forms and the second in the others |
| Contours.AfterDraw | plot/_helpers.py:229-236 | without `legend` nothing runs; with it, the step passes iff the legend check passes and the counted element is not an `int`, else the legend's error or `TypeError` from `len` |
| Contours.CountedPosition | plot/_helpers.py:236 | as written the second element is counted; as intended the levels of the spec's form |
| Contours.ContourStep | plot/_helpers.py:213-236 | one iteration succeeds iff the spec dispatches and the legend bookkeeping after drawing passes; a spec that does not dispatch raises its dispatch error, and one that dispatches raises the bookkeeping's error |
| Contours.ShowContoursFrom | plot/_helpers.py:213-236 | The loop draws specs in order. It completes iff every iteration succeeds. The calls it made are the dispatches of a prefix of the specs. A loop that stops does so at the first failing spec, with that spec's error. It has then drawn the specs before it, plus the failing spec itself when that spec dispatched |
| Contours.StoppedLater | plot/_helpers.py:213-236 | a run of the later specs that stopped at spec `k`, after a first spec that passed, is a run of all the specs that stopped at `k + 1` |
| Contours.ShowContours | plot/_helpers.py:204-236 | as written: an empty contour list draws nothing; otherwise every spec is drawn iff every iteration succeeds, and a failing run stops at the first failing spec with its error, having drawn the specs before it and the failing one if it dispatched |
| Contours.ShowContoursIntended | plot/_helpers.py:204-236 | the same loop counting each form's levels: every spec is drawn iff every corrected iteration succeeds, and a failing run stops as in the loop as written |
| Contours.ContoursStopAtFirstMalformed | plot/_helpers.py:213-227 | Without a legend the loop completes iff every spec is well formed. Otherwise it stops at the first malformed spec with that spec's error, having drawn exactly the specs before it |
| Contours.SlicedSpecWithLegend | plot/_helpers.py:218-236 | with a legend, a four-element sliced spec raises `TypeError` as written after being drawn, while counting its levels passes iff the levels are not an `int` |
| Contours.SlicedSpecLegendExample | plot/_helpers.py:218-236 | one sliced spec with `legend=True` is drawn and then raises as written, and completes as intended |
| Contours.PanelContours | plot/_helpers.py:209-210 | a panel takes the contour list of its number; a number past the list raises `IndexError` |
| SaveFigure.ExtensionTest | plot/_helpers.py:510 | a name has an extension iff its last dot lies after its last slash with a non-dot character between them |
| SaveFigure.SplitExt | plot/_helpers.py:510 | stem and extension concatenate to the name. The extension is non-empty iff the name has one. It then starts with the only dot it contains and holds no slash |
| SaveFigure.DefaultOut | plot/_helpers.py:510 | the default output name ends in `.png` |
| SaveFigure.DefaultOutReplacesExtension | plot/_helpers.py:510 | the default name is the name minus its extension plus `.png`, the whole name plus `.png` when there is no extension, and keeps the directory part unchanged |
| SaveFigure.PngSplit | plot/_helpers.py:510 | a stem whose last component holds a non-dot character, followed by `.png`, splits back into that stem and `.png` |
| SaveFigure.DefaultOutIsPng | plot/_helpers.py:510-512 | when the file name holds a character other than a dot, `splitext` reads the default name's extension as `.png`, the extension `savefig` picks the format from; so the default name is its own default name |
| SaveFigure.SavedAs | plot/_helpers.py:509-516 | the figure is saved under the default name, the given string, or the dict's `filename`, and nothing is saved for any other `out` |
| VelocityFix.Zip | helpers/_helpers.py:108 | zipping gives as many jobs as the shorter list, pairing entries by position |
| VelocityFix.PairJobs | helpers/_helpers.py:99-106 | a path with a path gives one job and two lists are zipped; every other combination raises `TypeError`, including the default `out=None` |
| VelocityFix.PairJobsIntended | helpers/_helpers.py:86-91 | as documented, leaving `out` out gives one job per file with no `out` entry |
| VelocityFix.PairingsAgree | helpers/_helpers.py:99-106 | wherever the code accepts its arguments, the documented pairing gives the same jobs |
| VelocityFix.ScaleCard | helpers/_helpers.py:125-126 | `card /= 1e6` turns a number into that number over 1e6 as a float; a missing card raises `KeyError`, a string card `TypeError` |
| VelocityFix.Rewrite | helpers/_helpers.py:125-127 | The rewrite succeeds iff `cdelt2` and `crval2` are numbers. The result has the same keys plus `cunit2`: `cdelt2` and `crval2` divided by 1e6, `cunit2 = 'km/s'`, every other card unchanged. It fails on `cdelt2` first |
| VelocityFix.Target | helpers/_helpers.py:115-121 | the target is the source with `overwrite`, else the `out` entry, else `<pv>.corrected` |
| VelocityFix.CorrectJob | helpers/_helpers.py:111-133 | A missing file or `cunit2` raises. For m/s, only the target changes: it receives the source's data, and its header is the converted header iff the rewrite succeeds, otherwise the plain copy. A unit equal to the already-km/s tag changes nothing. Any other unit raises `TypeError` naming it |
| VelocityFix.RunJobs | helpers/_helpers.py:108-133 | no jobs leave the files alone and raise nothing; a first job that raises ends the run with its files and error; no file other than a job's target changes |
| VelocityFix.RunJobsSingle | helpers/_helpers.py:108-133 | one job runs as exactly one `CorrectJob` iteration; with `RunJobsAppend` the loop is the in-order fold of `CorrectJob`, stopping at the first job that raises |
| VelocityFix.RunJobsAppend | helpers/_helpers.py:108 | jobs run in order: a concatenation runs the first part, then, unless it raised, the second part on the files it left |
| VelocityFix.MToKm | helpers/_helpers.py:67-133 | bad argument shapes raise `TypeError` before any file is touched; otherwise the paired jobs run with `'km/s\n'` as the already-km/s test |
| VelocityFix.MToKmIntended | helpers/_helpers.py:67-133 | the documented behaviour: `out` may be omitted and `'km/s'` counts as already converted |
| VelocityFix.SingleFileCorrection | helpers/_helpers.py:114-128 | correcting an m/s file to an `out` path puts the converted header and the source's data at `out` and changes no other file |
| VelocityFix.DefaultOutRaises | helpers/_helpers.py:99-106 | a single path with the default `out=None` raises `TypeError` and touches nothing |
| VelocityFix.DefaultOutWritesCorrected | helpers/_helpers.py:89-91 | with the documented default an m/s file gets a converted copy at `<pv>.corrected` and the original stays as it was |
| VelocityFix.InPlaceTwiceRaises | helpers/_helpers.py:127-133 | correcting a file in place and running again raises `TypeError` for the unit `'km/s'` that line 127 wrote |
| VelocityFix.InPlaceTwiceIntended | helpers/_helpers.py:127-133 | with `'km/s'` recognised, a second in-place run changes nothing |

## Left out

- aplpy and matplotlib calls: figure creation, colour scale, contour drawing, colorbars, beams, scale bars, ticks, legends, labels and `savefig`. These are rendering calls with no effect the model can see.
- FITS reading and writing, `os.system('cp -r ...')` and `print`. A file is an entry of the filesystem map, and a copy is a map update. A failing `cp`, shell quoting and paths naming directories are not modelled.
- astropy unit parsing and conversion. A physical channel argument is taken to be already in the axis unit. The GHz and km/s normalisation of the returned physical value (plot/_helpers.py:85-88) is not modelled; the value keeps the axis unit.
- Floating-point rounding. All arithmetic is on exact reals, so `x`, `y`, width, height and the converted channel are the exact-real values.
- Number-valued `naxis` that is not an integer, and numeric cards stored as strings. Both are modelled as `ValueError` rather than numpy's and astropy's exact behaviour.
- Python's `True == 1` and `0 == False`. `overwrite` is a boolean, and channel numbers are integers, not bools.
- The legend label call `cont[0].replace(...)`, the `collections[contournum]` lookup and the `clabel` handling in `_show_contours`. These are matplotlib objects. Of `contournum += len(...)` only the `TypeError` on an `int` is modelled, not the running count.
- `Recenter.RecenterPlot`: the pV zoom's reads of `cunit1`/`cunit2` and its unit conversions are not modelled, so a header missing them does not raise here.
- A `**` mapping that is not a `dict` in a five-element contour spec. All mappings are modelled as `dict`.
- `SaveFigure.SavedAs`: a dict `out` without a `filename` key is not modelled.
- Log-scale ticks, `_show_scalebar`, `_show_grid_colorbar`, `_execute_code`, the `hide_*Warnings` functions and the commented-out `crop_whitespace`. They are not part of this model.

## Findings

| source | as written | input that shows it | evidently intended | confidence | as-written member | corrected member |
|---|---|---|---|---|---|---|
| plot/_helpers.py:68-72 | `freqax` is bound only inside the loop, so `if not freqax` raises `UnboundLocalError` when no axis is spectral | a header with `naxis = 1`, `cunit1 = 'deg'` | raise the `TypeError` "Could not find a velocity/frequency axis" | high, not executed | Spectral.SpectralAxisAsWritten, Spectral.ChannelPhysical, Spectral.DegreeAxisRaisesUnbound, Grid.DegreeGridRaisesUnbound | Spectral.SpectralAxis, Spectral.ChannelPhysicalIntended |
| helpers/_helpers.py:99-106 | a path `pv` is accepted only with a string `out`, so the default `out=None` always raises `TypeError` | `m_to_km('a.fits')` | without `out`, correct into `a.fits.corrected`, as the docstring (lines 88-90) says | high, not executed | VelocityFix.PairJobs, VelocityFix.DefaultOutRaises | VelocityFix.PairJobsIntended, VelocityFix.DefaultOutWritesCorrected |
| helpers/_helpers.py:127-133 | the already-converted test compares with `'km/s\n'`, which the function itself never writes | `m_to_km('a.fits', overwrite=True, out='b.fits')` twice on an m/s file | recognise `'km/s'`, the unit line 127 writes, and leave the file alone | medium, not executed | VelocityFix.MToKm, VelocityFix.InPlaceTwiceRaises | VelocityFix.MToKmIntended, VelocityFix.InPlaceTwiceIntended |
| plot/_helpers.py:236 | after drawing, `contournum += len(cont[1])` counts the second element, which in the sliced forms is the slice; with a legend an `int` slice raises `TypeError` | `legend=True` with the spec `(data, 0, levels, colors)` | count the levels, `cont[2]` in the sliced forms | medium, not executed | Contours.ShowContours, Contours.SlicedSpecLegendExample | Contours.ShowContoursIntended, Contours.SlicedSpecWithLegend |

=== FILE: contours.dfy ===
/** `_show_contours`: each contour spec is a tuple whose length and element
    types select one form of the overlay call. */
module Contours {
  import opened Fits

  /** The kinds of element a contour spec holds, by exact Python type. */
  datatype Elem = IntElem | DictElem | OtherElem

  type Spec = seq<Elem>

  /** The overlay call a spec selects. */
  datatype ContourCall =
    | Levels               // (data, levels, colors)
    | SlicedLevels         // (data, slice, levels, colors)
    | LevelsWithOptions    // (data, levels, colors, options)
    | SlicedWithOptions    // (data, slices, levels, colors, options)

  /** The `legend` keyword: absent, `True`, a list of `n` names, or any other
      value (including `None` and `False` passed explicitly). */
  datatype Legend = NoLegend | LegendTrue | LegendNames(n: nat) | LegendOther

  /** The exact set of specs the dispatch of lines 214-227 accepts. */
  ghost predicate WellFormed(c: Spec) {
    || |c| == 3
    || (|c| == 4 && (c[1] == IntElem || c[3] == DictElem))
    || (|c| == 5 && c[4] == DictElem)
  }

  /** Lines 214-227. With four elements an `int` second element wins over a
      `dict` last one. The fifth element is unpacked with `**`, which Python
      refuses with `TypeError` unless it is a mapping. */
  function DispatchContour(c: Spec): (r: Result<ContourCall>)
    ensures r.Ok? <==> WellFormed(c)
    ensures r == Ok(Levels) <==> |c| == 3
    ensures r == Ok(SlicedLevels) <==> |c| == 4 && c[1] == IntElem
    ensures r == Ok(LevelsWithOptions) <==> |c| == 4 && c[1] != IntElem && c[3] == DictElem
    ensures r == Ok(SlicedWithOptions) <==> |c| == 5 && c[4] == DictElem
    ensures |c| == 4 && !WellFormed(c) ==> r == Err(TypeError(ContourUninterpretable))
    ensures |c| == 5 && c[4] != DictElem ==> r == Err(TypeError(ContourOptions))
    ensures |c| != 3 && |c| != 4 && |c| != 5 ==> r == Err(TypeError(ContourFormat))
  {
    if |c| == 3 then Ok(Levels)
    else if |c| == 4 then
      if c[1] == IntElem then Ok(SlicedLevels)
      else if c[3] == DictElem then Ok(LevelsWithOptions)
      else Err(TypeError(ContourUninterpretable))
    else if |c| == 5 then
      if c[4] == DictElem then Ok(SlicedWithOptions) else Err(TypeError(ContourOptions))
    else Err(TypeError(ContourFormat))
  }

  /** The legend check that follows each drawn contour (lines 229-235): with
      a list, contour `idx` needs a name. */
  function LegendCheck(legend: Legend, idx: nat): (r: Result<()>)
    ensures r.Ok? <==> (legend.NoLegend? || legend.LegendTrue? || (legend.LegendNames? && idx < legend.n))
    ensures legend.LegendOther? ==> r == Err(TypeError(LegendFormat))
    ensures legend.LegendNames? && legend.n <= idx ==> r == Err(IndexError)
  {
    match legend
    case NoLegend => Ok(())
    case LegendTrue => Ok(())
    case LegendNames(n) => if idx < n then Ok(()) else Err(IndexError)
    case LegendOther => Err(TypeError(LegendFormat))
  }

  /** The position of the levels element in a spec of the given form. */
  function LevelsPosition(call: ContourCall): (r: nat)
    ensures r == 2 <==> call.SlicedLevels? || call.SlicedWithOptions?
    ensures r == 1 <==> call.Levels? || call.LevelsWithOptions?
  {
    match call
    case SlicedLevels => 2
    case SlicedWithOptions => 2
    case _ => 1
  }

  /** What runs after a spec is drawn when `legend` was passed (lines
      229-236): the legend check, then `contournum += len(cont[at])`, which
      raises `TypeError` when that element is an `int`. Without a legend
      nothing runs. */
  function AfterDraw(c: Spec, legend: Legend, idx: nat, at: nat): (r: Result<()>)
    ensures legend.NoLegend? ==> r == Ok(())
    ensures !legend.NoLegend? ==> (r.Ok? <==> LegendCheck(legend, idx).Ok? && at < |c| && c[at] != IntElem)
    ensures LegendCheck(legend, idx).Err? ==> r == LegendCheck(legend, idx)
    ensures !legend.NoLegend? && LegendCheck(legend, idx).Ok? && at < |c| && c[at] == IntElem ==>
              r == Err(TypeError(NoLength))
  {
    if legend.NoLegend? then Ok(())
    else
      var _ :- LegendCheck(legend, idx);
      if at >= |c| then Err(IndexError)
      else if c[at] == IntElem then Err(TypeError(NoLength))
      else Ok(())
  }

  /** The element whose length is counted: as written always `cont[1]`,
      which is the slice for the sliced forms; as intended the levels. */
  function CountedPosition(call: ContourCall, intended: bool): (r: nat)
    ensures !intended ==> r == 1
    ensures intended ==> r == LevelsPosition(call)
  {
    if intended then LevelsPosition(call) else 1
  }

  /** One loop iteration: the spec is dispatched (and drawn), then the
      legend bookkeeping runs. */
  function ContourStep(c: Spec, legend: Legend, idx: nat, intended: bool): (r: Result<ContourCall>)
    ensures r.Ok? <==>
              && DispatchContour(c).Ok?
              && AfterDraw(c, legend, idx, CountedPosition(DispatchContour(c).value, intended)).Ok?
    ensures r.Ok? ==> r == DispatchContour(c)
    ensures DispatchContour(c).Err? ==> r == DispatchContour(c)
    ensures DispatchContour(c).Ok? && AfterDraw(c, legend, idx, CountedPosition(DispatchContour(c).value, intended)).Err? ==>
              r == Err(AfterDraw(c, legend, idx, CountedPosition(DispatchContour(c).value, intended)).error)
  {
    var call :- DispatchContour(c);
    var _ :- AfterDraw(c, legend, idx, CountedPosition(call, intended));
    Ok(call)
  }

  /** What the loop draws before it stops: the calls made, and the error
      that ended it, if any. */
  datatype ContourRun = ContourRun(calls: seq<ContourCall>, failure: Option<Error>)

  /** Spec `k` is the first whose step raises, counting indices from `idx`. */
  ghost predicate FailsFirstAt(specs: seq<Spec>, legend: Legend, idx: nat, intended: bool, k: int) {
    && 0 <= k < |specs|
    && ContourStep(specs[k], legend, idx + k, intended).Err?
    && forall j :: 0 <= j < k ==> ContourStep(specs[j], legend, idx + j, intended).Ok?
  }

  /** A run that stopped did so at the first failing spec, with that spec's
      error, having drawn the specs before it and, when it dispatched, the
      failing spec itself. */
  ghost predicate StoppedAt(r: ContourRun, specs: seq<Spec>, legend: Legend, idx: nat, intended: bool, k: int) {
    && FailsFirstAt(specs, legend, idx, intended, k)
    && r.failure == Some(ContourStep(specs[k], legend, idx + k, intended).error)
    && |r.calls| == k + (if DispatchContour(specs[k]).Ok? then 1 else 0)
  }

  /** The loop over the specs from index `idx` on. A spec that dispatches is
      drawn even when the legend bookkeeping after it then raises. */
  function ShowContoursFrom(specs: seq<Spec>, legend: Legend, idx: nat, intended: bool): (r: ContourRun)
    decreases |specs|
    ensures |r.calls| <= |specs|
    ensures forall j :: 0 <= j < |r.calls| ==> DispatchContour(specs[j]) == Ok(r.calls[j])
    ensures r.failure.None? <==> forall j :: 0 <= j < |specs| ==> ContourStep(specs[j], legend, idx + j, intended).Ok?
    ensures r.failure.None? ==> |r.calls| == |specs|
    ensures r.failure.Some? ==> exists k :: StoppedAt(r, specs, legend, idx, intended, k)
  {
    if |specs| == 0 then ContourRun([], None)
    else
      match DispatchContour(specs[0])
      case Err(e) =>
        assert StoppedAt(ContourRun([], Some(e)), specs, legend, idx, intended, 0);
        ContourRun([], Some(e))
      case Ok(call) =>
        match AfterDraw(specs[0], legend, idx, CountedPosition(call, intended))
        case Err(e) =>
          assert StoppedAt(ContourRun([call], Some(e)), specs, legend, idx, intended, 0);
          ContourRun([call], Some(e))
        case Ok(_) =>
          var rest := ShowContoursFrom(specs[1..], legend, idx + 1, intended);
          var r := ContourRun([call] + rest.calls, rest.failure);
          assert forall j :: 1 <= j < |specs| ==> specs[1..][j - 1] == specs[j];
          StoppedLater(specs, legend, idx, intended, call, specs[1..], idx + 1, rest);
          r
  }

  /** A run of the tail that stopped at `k`, after a first step that
      passed, is a run of the whole list that stopped at `k + 1`. */
  lemma StoppedLater(specs: seq<Spec>, legend: Legend, idx: nat, intended: bool, call: ContourCall,
                      tail: seq<Spec>, next: nat, rest: ContourRun)
    requires |specs| > 0 && ContourStep(specs[0], legend, idx, intended) == Ok(call)
    requires tail == specs[1..] && next == idx + 1
    requires rest.failure.Some? ==> exists k :: StoppedAt(rest, tail, legend, next, intended, k)
    ensures rest.failure.Some? ==>
              exists k :: StoppedAt(ContourRun([call] + rest.calls, rest.failure), specs, legend, idx, intended, k)
  {
    if rest.failure.Some? {
      var k :| StoppedAt(rest, tail, legend, next, intended, k);
      assert forall j :: 1 <= j < |specs| ==> tail[j - 1] == specs[j];
      assert StoppedAt(ContourRun([call] + rest.calls, rest.failure), specs, legend, idx, intended, k + 1);
    }
  }

  /** `_show_contours` as written, for the specs of one figure or panel; an
      empty list draws nothing. */
  function ShowContours(specs: seq<Spec>, legend: Legend): (r: ContourRun)
    ensures specs == [] ==> r == ContourRun([], None)
    ensures r.failure.None? <==> forall j :: 0 <= j < |specs| ==> ContourStep(specs[j], legend, j, false).Ok?
    ensures r.failure.None? ==> |r.calls| == |specs| && forall j :: 0 <= j < |specs| ==> DispatchContour(specs[j]) == Ok(r.calls[j])
    ensures r.failure.Some? ==>
              && (exists k :: StoppedAt(r, specs, legend, 0, false, k))
              && forall j :: 0 <= j < |r.calls| ==> DispatchContour(specs[j]) == Ok(r.calls[j])
  {
    ShowContoursFrom(specs, legend, 0, false)
  }

  /** `_show_contours` with the levels of each form counted. */
  function ShowContoursIntended(specs: seq<Spec>, legend: Legend): (r: ContourRun)
    ensures specs == [] ==> r == ContourRun([], None)
    ensures r.failure.None? <==> forall j :: 0 <= j < |specs| ==> ContourStep(specs[j], legend, j, true).Ok?
    ensures r.failure.None? ==> |r.calls| == |specs| && forall j :: 0 <= j < |specs| ==> DispatchContour(specs[j]) == Ok(r.calls[j])
    ensures r.failure.Some? ==>
              && (exists k :: StoppedAt(r, specs, legend, 0, true, k))
              && forall j :: 0 <= j < |r.calls| ==> DispatchContour(specs[j]) == Ok(r.calls[j])
  {
    ShowContoursFrom(specs, legend, 0, true)
  }

  /** Without a legend the loop draws every spec exactly when every spec is
      well formed, and otherwise stops at the first malformed one with its
      error, having drawn exactly the specs before it. */
  lemma {:induction false} ContoursStopAtFirstMalformed(specs: seq<Spec>, idx: nat, intended: bool)
    ensures var r := ShowContoursFrom(specs, NoLegend, idx, intended);
            && (r.failure.None? <==> forall j :: 0 <= j < |specs| ==> WellFormed(specs[j]))
            && (r.failure.Some? ==>
                  && |r.calls| < |specs|
                  && !WellFormed(specs[|r.calls|])
                  && r.failure == Some(DispatchContour(specs[|r.calls|]).error)
                  && forall j :: 0 <= j < |r.calls| ==> WellFormed(specs[j]))
  {
    var r := ShowContoursFrom(specs, NoLegend, idx, intended);
    assert forall j :: 0 <= j < |specs| ==>
             (ContourStep(specs[j], NoLegend, idx + j, intended).Ok? <==> WellFormed(specs[j]));
    if r.failure.Some? {
      var k :| StoppedAt(r, specs, NoLegend, idx, intended, k);
      assert |r.calls| == k;
    }
  }

  /** With a legend, a sliced spec is drawn and then, as written, raises
      `TypeError` from `len` of its slice; counting its levels instead
      passes whenever the levels are a sequence. */
  lemma SlicedSpecWithLegend(c: Spec, legend: Legend, idx: nat)
    requires DispatchContour(c) == Ok(SlicedLevels)
    requires !legend.NoLegend? && LegendCheck(legend, idx).Ok?
    ensures ContourStep(c, legend, idx, false) == Err(TypeError(NoLength))
    ensures ContourStep(c, legend, idx, true).Ok? <==> c[2] != IntElem
  {
  }

  /** A concrete run that shows it: one sliced spec, `legend=True`. */
  lemma SlicedSpecLegendExample()
    ensures ShowContours([[OtherElem, IntElem, OtherElem, OtherElem]], LegendTrue)
              == ContourRun([SlicedLevels], Some(TypeError(NoLength)))
    ensures ShowContoursIntended([[OtherElem, IntElem, OtherElem, OtherElem]], LegendTrue)
              == ContourRun([SlicedLevels], None)
  {
    var c := [OtherElem, IntElem, OtherElem, OtherElem];
    assert DispatchContour(c) == Ok(SlicedLevels);
    assert [c][1..] == [];
  }

  /** Line 210: in a grid each panel takes the contour list of its number. */
  function PanelContours(perPanel: seq<seq<Spec>>, num: nat): (r: Result<seq<Spec>>)
    ensures r.Ok? <==> num < |perPanel|
    ensures r.Ok? ==> r.value == perPanel[num]
    ensures num >= |perPanel| ==> r == Err(IndexError)
  {
    if num < |perPanel| then Ok(perPanel[num]) else Err(IndexError)
  }
}

=== FILE: fits.dfy ===
/** The FITS header as the plotting helpers see it, and the Python
    exceptions those helpers raise.

    A header is a finite map from keyword to value. The indexed WCS
    keywords that the source builds as `'ctype' + str(i)`, `'cunit' + str(i)`
    and so on are written `Axis(CTYPE, i)`, `Axis(CUNIT, i)`, ...; every
    keyword the helpers never name is some `Other(name)`.
 */
module Fits {

  datatype AxisKeyword = CTYPE | CUNIT | CRVAL | CDELT | CRPIX

  datatype Key =
    | Naxis
    | Axis(keyword: AxisKeyword, axis: nat)
    | Bunit
    | Other(name: string)

  /** A header card value: a string, an integer or a floating-point number. */
  datatype Value = Str(s: string) | Int(i: int) | Float(r: real)

  type Header = map<Key, Value>

  datatype Option<+T> = None | Some(value: T)

  /** Why a `TypeError` was raised; one variant per `raise TypeError(...)`
      site, plus the interpreter's own type errors the helpers run into. */
  datatype TypeReason =
    | NoSpectralAxis
    | ChannelArgument
    | RecenterLength
    | RecenterPosition
    | RecenterSize
    | PvRecenterLength
    | ContourUninterpretable
    | ContourFormat
    | ContourOptions
    | LegendFormat
    | NoLength
    | NotIterable
    | InputShape
    | VelocityUnit(unit: Value)
    | NonNumeric(key: Key)

  datatype Error =
    | KeyError(key: Key)
    | TypeError(reason: TypeReason)
    | ValueError
    | OverflowError
    | ZeroDivisionError
    | IndexError
    | UnboundLocalError(name: string)
    | FileNotFound(path: string)

  /** A Python call that returns a value or raises. The three members make
      it usable with `:-`, which propagates the first exception. */
  datatype Result<+T> = Ok(value: T) | Err(error: Error) {
    predicate IsFailure() {
      Err?
    }

    function PropagateFailure<U>(): Result<U>
      requires Err?
    {
      Err(error)
    }

    function Extract(): T
      requires Ok?
    {
      value
    }
  }

  predicate IsNumber(v: Value) {
    v.Int? || v.Float?
  }

  function AsReal(v: Value): real
    requires IsNumber(v)
  {
    if v.Int? then v.i as real else v.r
  }

  /** `header['naxis']`: the number of axes, which must be an integer card. */
  function AxisCount(h: Header): (r: Result<int>)
    ensures r.Ok? <==> Naxis in h && h[Naxis].Int?
    ensures r.Ok? ==> r.value == h[Naxis].i
    ensures Naxis !in h ==> r == Err(KeyError(Naxis))
  {
    if Naxis !in h then Err(KeyError(Naxis))
    else if h[Naxis].Int? then Ok(h[Naxis].i)
    else Err(ValueError)
  }

  /** A numeric card read as a real, as `str(header[k]) + unit` is parsed
      into a quantity or `int(header[k])` is taken. */
  function ReadNumber(h: Header, k: Key): (r: Result<real>)
    ensures r.Ok? <==> k in h && IsNumber(h[k])
    ensures r.Ok? ==> r.value == AsReal(h[k])
    ensures k !in h ==> r == Err(KeyError(k))
  {
    if k !in h then Err(KeyError(k))
    else if IsNumber(h[k]) then Ok(AsReal(h[k]))
    else Err(ValueError)
  }

  /** The values of keyword `kw` for the axes `lo`..`n`, read in increasing
      axis order as the source's `for i in np.arange(1, naxis+1)` loops do;
      the first missing keyword raises `KeyError`. */
  function ReadAxes(h: Header, kw: AxisKeyword, lo: nat, n: int): (r: Result<seq<Value>>)
    requires lo >= 1
    decreases n - lo + 1
    ensures r.Ok? <==> forall i: nat :: lo <= i <= n ==> Axis(kw, i) in h
    ensures r.Ok? ==>
              && |r.value| == (if n >= lo then n - lo + 1 else 0)
              && forall j :: 0 <= j < |r.value| ==> Axis(kw, lo + j) in h && r.value[j] == h[Axis(kw, lo + j)]
    ensures r.Err? ==> exists i: nat :: FirstMissing(h, kw, lo, i) && i <= n && r.error == KeyError(Axis(kw, i))
  {
    if n < lo then Ok([])
    else if Axis(kw, lo) !in h then
      assert FirstMissing(h, kw, lo, lo);
      Err(KeyError(Axis(kw, lo)))
    else
      match ReadAxes(h, kw, lo + 1, n)
      case Ok(rest) => Ok([h[Axis(kw, lo)]] + rest)
      case Err(e) =>
        assert forall i: nat :: FirstMissing(h, kw, lo + 1, i) ==> FirstMissing(h, kw, lo, i);
        Err(e)
  }

  /** Axis `i` is the first axis from `lo` on whose keyword `kw` is absent. */
  ghost predicate FirstMissing(h: Header, kw: AxisKeyword, lo: nat, i: nat) {
    && lo <= i
    && Axis(kw, i) !in h
    && forall j: nat :: lo <= j < i ==> Axis(kw, j) in h
  }

  /** Runs a sequence of steps in order, as a Python loop does: the values
      of all of them, or the error of the first one that raises. */
  function Collect<T>(rs: seq<Result<T>>): (r: Result<seq<T>>)
    ensures r.Ok? <==> forall j :: 0 <= j < |rs| ==> rs[j].Ok?
    ensures r.Ok? ==> |r.value| == |rs| && forall j :: 0 <= j < |rs| ==> rs[j] == Ok(r.value[j])
    ensures r.Err? ==> exists j :: 0 <= j < |rs| && FirstErr(rs, j) && r.error == rs[j].error
  {
    if |rs| == 0 then Ok([])
    else
      match rs[0]
      case Err(e) =>
        assert FirstErr(rs, 0);
        Err(e)
      case Ok(v) =>
        var tail := rs[1..];
        assert forall j :: 1 <= j < |rs| ==> rs[j] == tail[j - 1];
        match Collect(tail)
        case Err(e) =>
          assert forall j :: 0 <= j < |tail| && FirstErr(tail, j) ==> FirstErr(rs, j + 1);
          Err(e)
        case Ok(vs) =>
          assert forall j :: 1 <= j < |rs| ==> ([v] + vs)[j] == vs[j - 1];
          Ok([v] + vs)
  }

  /** Step `j` is the first of `rs` that raises. */
  ghost predicate FirstErr<T>(rs: seq<Result<T>>, j: int)
    requires 0 <= j < |rs|
  {
    rs[j].Err? && forall k :: 0 <= k < j ==> rs[k].Ok?
  }
}

=== FILE: grid.dfy ===
/** `_grid_panels`: the layout of an `ncols x nrows` grid of channel maps,
    one panel per channel in row-major order, with an optional trailing
    colorbar panel. Positions and sizes are fractions of the figure. */
module Grid {
  import opened Fits
  import opened PyNumeric
  import opened Spectral
  import opened Position

  datatype Shape = Shape(ncols: int, nrows: int)

  /** The four margin fractions of the settings, in the source's index
      order 0..3: left, right, top, bottom. */
  datatype Margins = Margins(left: real, right: real, top: real, bottom: real)

  datatype PanelKind = MapPanel | ColorbarPanel

  /** One panel record; `x`, `y` is the lower-left corner. */
  datatype Panel = Panel(
    num: int,
    npanels: int,
    position: Option<string>,
    kind: PanelKind,
    x: real,
    y: real,
    width: real,
    height: real,
    file: string,
    channel: Option<int>,
    physical: Option<Quantity>)

  /** The `colorbar` keyword: absent (the default `['right', bunit]`),
      `None`, or a list whose first entry is the location. */
  datatype ColorbarArg = ColorbarDefault | NoColorbar | ColorbarAt(location: string)

  predicate HasLastPanelColorbar(c: ColorbarArg) {
    c.ColorbarAt? && c.location == "last panel"
  }

  /** `idx % ncols == 0`, with Python's float remainder. */
  predicate IsLeft(s: Shape, idx: int)
    requires s.ncols != 0
  {
    FloorMod(idx, s.ncols) == 0
  }

  predicate IsBottom(s: Shape, idx: int) {
    idx >= (s.nrows - 1) * s.ncols
  }

  function PanelWidth(s: Shape, m: Margins): real
    requires s.ncols != 0
  {
    (1.0 - m.left - m.right) / s.ncols as real
  }

  function PanelHeight(s: Shape, m: Margins): real
    requires s.nrows != 0
  {
    (1.0 - m.top - m.bottom) / s.nrows as real
  }

  /** `margins[0] + (idx % ncols) * panels_width / ncols`; over exact reals
      the product-then-quotient is the column times the panel width. */
  function PanelX(s: Shape, m: Margins, idx: int): real
    requires s.ncols != 0
  {
    m.left + FloorMod(idx, s.ncols) as real * PanelWidth(s, m)
  }

  /** `(1 - margins[2]) - np.ceil((idx + 1) / ncols) * panels_height / nrows`. */
  function PanelY(s: Shape, m: Margins, idx: int): real
    requires s.ncols != 0 && s.nrows != 0
  {
    (1.0 - m.top) - Ceil((idx + 1) as real / s.ncols as real) as real * PanelHeight(s, m)
  }

  /** Whether `p` has the corner and size that index `idx` gets. */
  ghost predicate HasCellOf(p: Panel, s: Shape, m: Margins, idx: int)
    requires s.ncols != 0 && s.nrows != 0
  {
    && p.x == PanelX(s, m, idx)
    && p.y == PanelY(s, m, idx)
    && p.width == PanelWidth(s, m)
    && p.height == PanelHeight(s, m)
  }

  /** One iteration of the loop of lines 122-140. Evaluation order decides
      the error: `idx % ncols` divides by zero first, then the channel is
      converted, then `panels_height / nrows` divides by zero. */
  function MapPanelAt(h: Header, file: string, s: Shape, m: Margins, idx: int, ch: ChannelArg): (r: Result<Panel>)
    ensures r.Ok? <==> s.ncols != 0 && s.nrows != 0 && ChannelPhysical(h, ch).Ok?
    ensures s.ncols == 0 ==> r == Err(ZeroDivisionError)
    ensures s.ncols != 0 && ChannelPhysical(h, ch).Err? ==> r == Err(ChannelPhysical(h, ch).error)
    ensures s.ncols != 0 && ChannelPhysical(h, ch).Ok? && s.nrows == 0 ==> r == Err(ZeroDivisionError)
    ensures r.Ok? ==>
              var p := r.value;
              var cp := ChannelPhysical(h, ch).value;
              && p.kind == MapPanel
              && p.num == idx
              && p.npanels == s.ncols * s.nrows
              && p.file == file
              && p.channel == Some(cp.channel)
              && p.physical == Some(cp.physical)
              && p.position == Some(PositionTag(IsLeft(s, idx), IsBottom(s, idx)))
              && (Contains(p.position.value, "left") <==> IsLeft(s, idx))
              && (Contains(p.position.value, "bottom") <==> IsBottom(s, idx))
              && HasCellOf(p, s, m, idx)
  {
    if s.ncols == 0 then Err(ZeroDivisionError)
    else
      var tag := PositionTag(IsLeft(s, idx), IsBottom(s, idx));
      TagContents(IsLeft(s, idx), IsBottom(s, idx));
      var cp :- ChannelPhysical(h, ch);
      if s.nrows == 0 then Err(ZeroDivisionError)
      else
        Ok(Panel(idx, s.ncols * s.nrows, Some(tag), MapPanel,
                 PanelX(s, m, idx), PanelY(s, m, idx), PanelWidth(s, m), PanelHeight(s, m),
                 file, Some(cp.channel), Some(cp.physical)))
  }

  /** The iterations of the loop over `enumerate(channels)`, one attempted
      map panel per channel, in order. */
  function MapPanels(h: Header, file: string, s: Shape, m: Margins, channels: seq<ChannelArg>): (rs: seq<Result<Panel>>)
    ensures |rs| == |channels|
    ensures forall j :: 0 <= j < |channels| ==> rs[j] == MapPanelAt(h, file, s, m, j, channels[j])
  {
    seq(|channels|, j requires 0 <= j < |channels| => MapPanelAt(h, file, s, m, j, channels[j]))
  }

  /** The colorbar record of lines 144-155: numbered after the last map
      index `idx`, but placed with `idx`'s own corner and size. */
  function ColorbarPanelAfter(file: string, s: Shape, m: Margins, idx: int): (p: Panel)
    requires s.ncols != 0 && s.nrows != 0
    ensures p.kind == ColorbarPanel && p.num == idx + 1 && p.position == None
    ensures p.channel == None && p.physical == None
    ensures p.npanels == s.ncols * s.nrows && p.file == file
    ensures HasCellOf(p, s, m, idx)
  {
    Panel(idx + 1, s.ncols * s.nrows, None, ColorbarPanel,
          PanelX(s, m, idx), PanelY(s, m, idx), PanelWidth(s, m), PanelHeight(s, m),
          file, None, None)
  }

  /** Channel `j` is the first whose map panel raises: the loop stops there. */
  ghost predicate FirstFailingChannel(h: Header, file: string, s: Shape, m: Margins, channels: seq<ChannelArg>, j: int) {
    && 0 <= j < |channels|
    && MapPanelAt(h, file, s, m, j, channels[j]).Err?
    && forall k :: 0 <= k < j ==> MapPanelAt(h, file, s, m, k, channels[k]).Ok?
  }

  /** `_grid_panels`. The default colorbar `['right', header['bunit']]` is
      built before `kwargs.get` runs, so a header without `bunit` raises
      `KeyError` whatever colorbar is passed. An empty channel list with a
      `'last panel'` colorbar reads the never-bound loop variable `idx`. */
  function GridPanels(h: Header, file: string, s: Shape, m: Margins, channels: seq<ChannelArg>, colorbar: ColorbarArg): (r: Result<seq<Panel>>)
    ensures Bunit !in h ==> r == Err(KeyError(Bunit))
    ensures r.Ok? <==>
              && Bunit in h
              && (forall j :: 0 <= j < |channels| ==> MapPanelAt(h, file, s, m, j, channels[j]).Ok?)
              && (HasLastPanelColorbar(colorbar) ==> |channels| > 0)
    ensures Bunit in h && HasLastPanelColorbar(colorbar) && |channels| == 0 ==> r == Err(UnboundLocalError("idx"))
    ensures Bunit in h && !(forall j :: 0 <= j < |channels| ==> MapPanelAt(h, file, s, m, j, channels[j]).Ok?) ==>
              exists j :: FirstFailingChannel(h, file, s, m, channels, j) && r == Err(MapPanelAt(h, file, s, m, j, channels[j]).error)
    ensures r.Ok? ==>
              && |r.value| == |channels| + (if HasLastPanelColorbar(colorbar) then 1 else 0)
              && forall j :: 0 <= j < |channels| ==> Ok(r.value[j]) == MapPanelAt(h, file, s, m, j, channels[j])
    ensures r.Ok? && HasLastPanelColorbar(colorbar) ==>
              && s.ncols != 0 && s.nrows != 0
              && r.value[|channels|] == ColorbarPanelAfter(file, s, m, |channels| - 1)
  {
    if Bunit !in h then Err(KeyError(Bunit))
    else
      var ps :- Collect(MapPanels(h, file, s, m, channels));
      if !HasLastPanelColorbar(colorbar) then Ok(ps)
      else if |channels| == 0 then Err(UnboundLocalError("idx"))
      else
        assert MapPanels(h, file, s, m, channels)[0].Ok?;
        Ok(ps + [ColorbarPanelAfter(file, s, m, |channels| - 1)])
  }

  /** A one-channel grid of a cube whose only axis is in degrees: the
      grid raises the `UnboundLocalError` of the channel conversion. */
  lemma DegreeGridRaisesUnbound(file: string, m: Margins, colorbar: ColorbarArg)
    ensures GridPanels(map[Naxis := Int(1), Axis(CUNIT, 1) := Str("deg"), Bunit := Str("K")],
                       file, Shape(1, 1), m, [ChannelNumber(0)], colorbar)
            == Err(UnboundLocalError("freqax"))
  {
    var h := map[Naxis := Int(1), Axis(CUNIT, 1) := Str("deg"), Bunit := Str("K")];
    DegreeAxisScan(h);
    ChannelPhysicalVersions(h, ChannelNumber(0));
    assert MapPanelAt(h, file, Shape(1, 1), m, 0, ChannelNumber(0)) == Err(UnboundLocalError("freqax"));
  }

  /** Every map panel of a built grid: in input order, numbered by its
      index, tagged `left` exactly in the first column and `bottom` exactly
      from the start of the last row, carrying its channel's conversion. */
  lemma GridMapPanels(h: Header, file: string, s: Shape, m: Margins, channels: seq<ChannelArg>, colorbar: ColorbarArg, j: int)
    requires Bunit in h && 0 <= j < |channels|
    requires forall k :: 0 <= k < |channels| ==> MapPanelAt(h, file, s, m, k, channels[k]).Ok?
    ensures var p := GridPanels(h, file, s, m, channels, colorbar).value[j];
            && s.ncols != 0 && s.nrows != 0
            && p.kind == MapPanel && p.num == j && p.npanels == s.ncols * s.nrows
            && p.channel == Some(ChannelPhysical(h, channels[j]).value.channel)
            && p.physical == Some(ChannelPhysical(h, channels[j]).value.physical)
            && p.position.Some?
            && (Contains(p.position.value, "left") <==> IsLeft(s, j))
            && (Contains(p.position.value, "bottom") <==> IsBottom(s, j))
            && FormatGridLabels(p.position) == Ok(AxisLabels(IsBottom(s, j), IsLeft(s, j)))
  {
    var p := GridPanels(h, file, s, m, channels, colorbar).value[j];
    assert MapPanelAt(h, file, s, m, j, channels[j]) == Ok(p);
    assert p.position == Some(PositionTag(IsLeft(s, j), IsBottom(s, j))) by {
      TagContents(IsLeft(s, j), IsBottom(s, j));
      var t := p.position.value;
      var l, b := Contains(t, "left"), Contains(t, "bottom");
      TagIsDetermined(t, l, b);
    }
  }

  /** The colorbar panel of a built grid repeats the last map panel's corner
      and size, and a label query on it raises `TypeError`. */
  lemma GridColorbarPanel(h: Header, file: string, s: Shape, m: Margins, channels: seq<ChannelArg>, colorbar: ColorbarArg)
    requires Bunit in h && HasLastPanelColorbar(colorbar) && 0 < |channels|
    requires forall j :: 0 <= j < |channels| ==> MapPanelAt(h, file, s, m, j, channels[j]).Ok?
    ensures var ps := GridPanels(h, file, s, m, channels, colorbar).value;
            var last, cb := ps[|channels| - 1], ps[|channels|];
            && cb.kind == ColorbarPanel && cb.num == |channels| && cb.npanels == s.ncols * s.nrows
            && cb.channel == None && cb.physical == None
            && (cb.x, cb.y, cb.width, cb.height) == (last.x, last.y, last.width, last.height)
            && FormatGridLabels(cb.position) == Err(TypeError(NotIterable))
  {
    var ps := GridPanels(h, file, s, m, channels, colorbar).value;
    assert MapPanelAt(h, file, s, m, |channels| - 1, channels[|channels| - 1]) == Ok(ps[|channels| - 1]);
  }

  /** The tags a map panel can carry are told apart by their substrings. */
  lemma TagIsDetermined(t: string, l: bool, b: bool)
    requires exists l', b' :: t == PositionTag(l', b')
    requires l == Contains(t, "left") && b == Contains(t, "bottom")
    ensures t == PositionTag(l, b)
  {
    var l', b' :| t == PositionTag(l', b');
    TagContents(l', b');
  }

  /** The geometry in the source's terms (lines 133-136): for a positive column count, the
      corner of index `idx` is its column times the width right of the left
      margin, and its row plus one times the height below the top margin. */
  lemma {:induction false} PanelGeometry(s: Shape, m: Margins, idx: int)
    requires 0 < s.ncols && s.nrows != 0 && 0 <= idx
    ensures PanelWidth(s, m) == (1.0 - m.left - m.right) / s.ncols as real
    ensures PanelHeight(s, m) == (1.0 - m.top - m.bottom) / s.nrows as real
    ensures PanelX(s, m, idx) == m.left + (idx % s.ncols) as real * PanelWidth(s, m)
    ensures PanelY(s, m, idx) == (1.0 - m.top) - (idx / s.ncols + 1) as real * PanelHeight(s, m)
  {
    FloorModPositive(idx, s.ncols);
    CeilOfNextIndex(idx, s.ncols);
  }

  /** A panel whose index lies inside the grid lies inside the margins. */
  lemma {:induction false} PanelInsideMargins(s: Shape, m: Margins, idx: int)
    requires 0 < s.ncols && 0 < s.nrows && 0 <= idx < s.ncols * s.nrows
    requires 0.0 <= m.left && 0.0 <= m.right && 0.0 <= m.top && 0.0 <= m.bottom
    requires m.left + m.right < 1.0 && m.top + m.bottom < 1.0
    ensures m.left <= PanelX(s, m, idx)
    ensures PanelX(s, m, idx) + PanelWidth(s, m) <= 1.0 - m.right
    ensures m.bottom <= PanelY(s, m, idx)
    ensures PanelY(s, m, idx) + PanelHeight(s, m) <= 1.0 - m.top
  {
    ColumnInsideMargins(s, m, idx);
    RowInsideMargins(s, m, idx);
  }

  lemma {:induction false} ColumnInsideMargins(s: Shape, m: Margins, idx: int)
    requires 0 < s.ncols && 0 <= idx
    requires 0.0 <= m.left && 0.0 <= m.right && m.left + m.right < 1.0
    ensures m.left <= PanelX(s, m, idx) && PanelX(s, m, idx) + PanelWidth(s, m) <= 1.0 - m.right
  {
    FloorModPositive(idx, s.ncols);
    ColumnSpan(m.left, 1.0 - m.left - m.right, idx % s.ncols, s.ncols, PanelX(s, m, idx), PanelWidth(s, m));
  }

  lemma {:induction false} RowInsideMargins(s: Shape, m: Margins, idx: int)
    requires 0 < s.ncols && 0 < s.nrows && 0 <= idx < s.ncols * s.nrows
    requires 0.0 <= m.top && 0.0 <= m.bottom && m.top + m.bottom < 1.0
    ensures m.bottom <= PanelY(s, m, idx) && PanelY(s, m, idx) + PanelHeight(s, m) <= 1.0 - m.top
  {
    CeilOfNextIndex(idx, s.ncols);
    RowBound(idx, s.ncols, s.nrows);
    RowSpan(1.0 - m.top, 1.0 - m.top - m.bottom, idx / s.ncols, s.nrows, PanelY(s, m, idx), PanelHeight(s, m));
  }

  /** Column `c` of `n` equal columns starting at `lo` lies within the span. */
  lemma ColumnSpan(lo: real, span: real, c: int, n: int, x: real, w: real)
    requires 0 <= c < n && 0.0 < span && w == span / n as real && x == lo + c as real * w
    ensures lo <= x && x + w <= lo + span
  {
    CellFits(c, n, span);
  }

  /** Row `r` of `n` equal rows hanging below `hi` lies within the span. */
  lemma RowSpan(hi: real, span: real, r: int, n: int, y: real, h: real)
    requires 0 <= r < n && 0.0 < span && h == span / n as real && y == hi - (r + 1) as real * h
    ensures hi - span <= y && y + h <= hi
  {
    CellFits(r, n, span);
  }

  lemma RowBound(idx: int, ncols: int, nrows: int)
    requires 0 < ncols && 0 < nrows && 0 <= idx < ncols * nrows
    ensures idx / ncols < nrows
  {
    var q := idx / ncols;
    assert q * ncols <= idx;
    assert (q - nrows) * ncols < 0;
  }

  /** Cell `c` of `n` equal cells of a span lies within the span. */
  lemma CellFits(c: int, n: int, span: real)
    requires 0 <= c < n && 0.0 < span
    ensures 0.0 <= c as real * (span / n as real)
    ensures (c + 1) as real * (span / n as real) == c as real * (span / n as real) + span / n as real
    ensures (c + 1) as real * (span / n as real) <= span
  {
    var cell := span / n as real;
    assert cell * n as real == span;
    assert 0.0 < cell;
    assert (c + 1) as real * cell <= n as real * cell;
  }
}

=== FILE: image_type.dfy ===
/** `_check_image_type`: a position-velocity diagram is recognised by an
    offset/position axis among the header's `ctype`s. */
module ImageType {
  import opened Fits

  datatype ImType = PV | PP

  const OffsetTypes: set<string> := {"OFFSET", "offset", "POSITION", "position"}

  predicate IsOffsetType(v: Value) {
    v.Str? && v.s in OffsetTypes
  }

  /** Reads `ctype1`..`ctype<naxis>` and answers `PV` exactly when one of them
      names an offset or position axis. A missing `naxis` or `ctype` raises
      `KeyError`. */
  function CheckImageType(h: Header): (r: Result<ImType>)
    ensures r.Ok? <==>
              Naxis in h && h[Naxis].Int? && forall i: nat :: 1 <= i <= h[Naxis].i ==> Axis(CTYPE, i) in h
    ensures r.Ok? ==>
              (r.value == PV <==> exists i: nat :: 1 <= i <= h[Naxis].i && IsOffsetType(h[Axis(CTYPE, i)]))
    ensures Naxis !in h ==> r == Err(KeyError(Naxis))
    ensures r.Err? && Naxis in h && h[Naxis].Int? ==>
              exists i: nat :: FirstMissing(h, CTYPE, 1, i) && r.error == KeyError(Axis(CTYPE, i))
  {
    var n :- AxisCount(h);
    var ctypes :- ReadAxes(h, CTYPE, 1, n);
    if exists j :: 0 <= j < |ctypes| && IsOffsetType(ctypes[j]) then
      assert forall j :: 0 <= j < |ctypes| && IsOffsetType(ctypes[j]) ==>
          var i: nat := 1 + j; i <= n && IsOffsetType(h[Axis(CTYPE, i)]);
      Ok(PV)
    else
      assert forall i: nat :: 1 <= i <= n ==> h[Axis(CTYPE, i)] == ctypes[i - 1];
      Ok(PP)
  }
}

=== FILE: position.dfy ===
/** A grid panel's position tag and the axis labels it turns on
    (`_grid_panels` builds the tag; `_format_grid_ticksNlabels` reads it
    back with Python's substring test `'left' in position`). */
module Position {
  import opened Fits

  /** Python's `t in s` for strings: `t` occurs in `s` as a substring. */
  predicate Contains(s: string, t: string) {
    exists i :: 0 <= i <= |s| - |t| && OccursAt(s, t, i)
  }

  predicate OccursAt(s: string, t: string, i: int) {
    0 <= i <= |s| - |t| && s[i..i + |t|] == t
  }

  /** The tag built by `pos = ''; pos += 'left'; pos += 'bottom'`. */
  function PositionTag(left: bool, bottom: bool): string {
    (if left then "left" else "") + (if bottom then "bottom" else "")
  }

  /** Reading the tag back by substring recovers exactly the two flags it
      was built from. */
  lemma TagContents(left: bool, bottom: bool)
    ensures Contains(PositionTag(left, bottom), "left") <==> left
    ensures Contains(PositionTag(left, bottom), "bottom") <==> bottom
  {
    var tag := PositionTag(left, bottom);
    if left {
      assert OccursAt(tag, "left", 0);
    } else if bottom {
      assert tag == "bottom";
      forall i | 0 <= i <= 2
        ensures !OccursAt(tag, "left", i)
      {
        assert tag[i..i + 4][0] == tag[i] != 'l';
      }
    }
    if bottom {
      assert OccursAt(tag, "bottom", |tag| - 6);
    } else {
      assert |tag| < 6;
    }
  }

  /** Which axis and tick labels a grid panel shows. */
  datatype AxisLabels = AxisLabels(showX: bool, showY: bool)

  /** `_format_grid_ticksNlabels`: all labels are hidden first, then the y
      labels are shown on a `left` panel and the x labels on a `bottom`
      panel. A panel without a tag (the colorbar panel) makes `in` raise
      `TypeError`. */
  function FormatGridLabels(position: Option<string>): (r: Result<AxisLabels>)
    ensures position.None? ==> r == Err(TypeError(NotIterable))
    ensures position.Some? ==> r.Ok?
    ensures forall l, b :: position == Some(PositionTag(l, b)) ==> r == Ok(AxisLabels(b, l))
  {
    match position
    case None => Err(TypeError(NotIterable))
    case Some(tag) =>
      var labels := AxisLabels(Contains(tag, "bottom"), Contains(tag, "left"));
      assert forall l, b :: tag == PositionTag(l, b) ==> labels == AxisLabels(b, l) by {
        forall l, b | tag == PositionTag(l, b) ensures labels == AxisLabels(b, l) {
          TagContents(l, b);
        }
      }
      Ok(labels)
  }
}

=== FILE: py_numeric.dfy ===
/** Python's numeric conversions that the helpers rely on, written out over
    exact integers and reals: `int(x)` truncates toward zero, `np.ceil`
    rounds up, and `%` on a float takes the sign of the divisor. Dafny's own
    `/` and `%` on `int` are Euclidean, so none of these is the built-in. */
module PyNumeric {

  /** `int(x)` for a finite float `x`: truncation toward zero. */
  function Trunc(x: real): (r: int)
    ensures 0.0 <= x ==> r as real <= x < r as real + 1.0
    ensures x < 0.0 ==> r as real - 1.0 < x <= r as real
  {
    if x >= 0.0 then x.Floor else -((-x).Floor)
  }

  /** `np.ceil(x)`: the least integer not below `x`. */
  function Ceil(x: real): (r: int)
    ensures r as real - 1.0 < x <= r as real
  {
    -((-x).Floor)
  }

  /** Python's `a % b` for `b != 0`: the remainder carrying the sign of `b`. */
  function FloorMod(a: int, b: int): (r: int)
    requires b != 0
    ensures exists q: int :: a == q * b + r
    ensures 0 < b ==> 0 <= r < b
    ensures b < 0 ==> b < r <= 0
  {
    if b > 0 || a % b == 0 then
      assert a == (a / b) * b + a % b;
      a % b
    else
      assert a == (a / b - 1) * b + (a % b + b);
      a % b + b
  }

  lemma TruncOfInteger(n: int)
    ensures Trunc(n as real) == n
  {
  }

  /** For a positive divisor Python's remainder is the Euclidean one. */
  lemma FloorModPositive(a: int, b: int)
    requires 0 < b
    ensures FloorMod(a, b) == a % b
  {
  }

  lemma UnitFraction(a: int, n: int)
    requires 0 < a <= n
    ensures 0.0 < a as real / n as real <= 1.0
  {
    var f := a as real / n as real;
    assert f * n as real == a as real;
  }

  /** `ceil((idx + 1) / n)` is `idx div n + 1` for a positive `n`: the
      1-based row of a 0-based row-major index. */
  lemma {:induction false} CeilOfNextIndex(idx: int, n: int)
    requires 0 < n
    ensures Ceil((idx + 1) as real / n as real) == idx / n + 1
  {
    var q, rem := idx / n, idx % n;
    assert idx == q * n + rem && 0 <= rem < n;
    var x := (idx + 1) as real / n as real;
    assert x == q as real + (rem + 1) as real / n as real by {
      assert (idx + 1) as real == q as real * n as real + (rem + 1) as real;
    }
    UnitFraction(rem + 1, n);
    var c := Ceil(x);
    assert c as real - 1.0 < x <= c as real;
    assert q as real < x <= (q + 1) as real;
    assert c == q + 1;
  }
}

=== FILE: recenter.dfy ===
/** `_recenter_plot` and `_test_recenter_format`: the shape check on the
    `recenter` keyword and the zoom it selects. */
module Recenter {
  import opened Fits
  import opened ImageType

  /** The kinds of value a recenter list holds: a sky position, an astropy
      quantity, or anything else. */
  datatype Item = SkyCoordItem | QuantityItem | OtherItem

  /** The zoom requested from the figure. */
  datatype Zoom =
    | NoZoom
    | Circle     // centre and radius
    | Box        // centre, width and height
    | PvBox      // offset centre, velocity centre, width and height

  predicate SizesAreQuantities(items: seq<Item>) {
    forall j :: 1 <= j < |items| ==> items[j] == QuantityItem
  }

  /** `_test_recenter_format`: two or three entries, a sky position first
      and quantities after; each check raises its own `TypeError`, tried in
      this order. */
  function TestRecenterFormat(items: seq<Item>): (r: Result<bool>)
    ensures r.Ok? ==> r.value
    ensures r.Ok? <==> (|items| == 2 || |items| == 3) && items[0] == SkyCoordItem && SizesAreQuantities(items)
    ensures |items| != 2 && |items| != 3 ==> r == Err(TypeError(RecenterLength))
    ensures (|items| == 2 || |items| == 3) && items[0] != SkyCoordItem ==> r == Err(TypeError(RecenterPosition))
    ensures (|items| == 2 || |items| == 3) && items[0] == SkyCoordItem && !SizesAreQuantities(items) ==>
              r == Err(TypeError(RecenterSize))
  {
    if |items| != 2 && |items| != 3 then Err(TypeError(RecenterLength))
    else if items[0] != SkyCoordItem then Err(TypeError(RecenterPosition))
    else if exists j :: 1 <= j < |items| && items[j] != QuantityItem then Err(TypeError(RecenterSize))
    else Ok(true)
  }

  /** `_recenter_plot`: a position-position image zooms on a circle (two
      entries) or a box (three), after the format check; a pV diagram needs
      exactly four entries; no recenter, or an image of neither type, leaves
      the view alone. */
  function RecenterPlot(imtype: Option<ImType>, recenter: Option<seq<Item>>): (r: Result<Zoom>)
    ensures recenter.None? ==> r == Ok(NoZoom)
    ensures imtype.None? ==> r == Ok(NoZoom)
    ensures imtype == Some(PP) && recenter.Some? ==>
              var items := recenter.value;
              && (r.Ok? <==> TestRecenterFormat(items).Ok?)
              && (r.Err? ==> r == Err(TestRecenterFormat(items).error))
              && (r == Ok(Circle) <==> r.Ok? && |items| == 2)
              && (r == Ok(Box) <==> r.Ok? && |items| == 3)
    ensures imtype == Some(PV) && recenter.Some? ==>
              r == (if |recenter.value| == 4 then Ok(PvBox) else Err(TypeError(PvRecenterLength)))
  {
    match (imtype, recenter)
    case (Some(PP), Some(items)) =>
      (var _ :- TestRecenterFormat(items);
       if |items| == 2 then Ok(Circle) else Ok(Box))
    case (Some(PV), Some(items)) =>
      if |items| == 4 then Ok(PvBox) else Err(TypeError(PvRecenterLength))
    case _ => Ok(NoZoom)
  }
}

=== FILE: save_figure.dfy ===
/** `_save_figure`: where a figure is written. Without an `out` keyword the
    name is the FITS file's stem, as `os.path.splitext` (POSIX) cuts it,
    plus `.png`. */
module SaveFigure {
  import opened Fits

  /** `s.rfind(c)`: the last index holding `c`, or -1. */
  function RFind(s: string, c: char): (r: int)
    ensures -1 <= r < |s|
    ensures 0 <= r ==> s[r] == c
    ensures forall j :: r < j < |s| ==> s[j] != c
  {
    if |s| == 0 then -1
    else if s[|s| - 1] == c then |s| - 1
    else RFind(s[..|s| - 1], c)
  }

  /** No `/` from index `k` to the end: `k` lies in the last path component. */
  ghost predicate InLastComponent(p: string, k: int) {
    forall j :: 0 <= j < |p| && k <= j ==> p[j] != '/'
  }

  /** The file name has an extension: some non-dot character of the last
      path component is followed by a dot. A name made only of leading dots
      (`.bashrc`) has none. */
  ghost predicate HasExt(p: string) {
    exists k, d :: 0 <= k < d < |p| && p[k] != '.' && p[d] == '.' && InLastComponent(p, k)
  }

  /** The test `posixpath.splitext` makes: the last dot lies after the last
      slash, and a non-dot character lies between them. */
  lemma ExtensionTest(p: string)
    ensures HasExt(p) <==>
              var sep, dot := RFind(p, '/'), RFind(p, '.');
              dot > sep && exists k :: sep < k < dot && p[k] != '.'
  {
    var sep, dot := RFind(p, '/'), RFind(p, '.');
    if HasExt(p) {
      var k, d :| 0 <= k < d < |p| && p[k] != '.' && p[d] == '.' && InLastComponent(p, k);
      assert sep < k;
      assert d <= dot;
      assert sep < k < dot && p[k] != '.';
    }
    if dot > sep && exists k :: sep < k < dot && p[k] != '.' {
      var k :| sep < k < dot && p[k] != '.';
      assert InLastComponent(p, k);
      assert 0 <= k < dot < |p| && p[k] != '.' && p[dot] == '.';
    }
  }

  /** `os.path.splitext(p)` for a POSIX path: the extension runs from the
      last dot of the last component, provided a non-dot character precedes
      that dot within the component. */
  function SplitExt(p: string): (r: (string, string))
    ensures r.0 + r.1 == p
    ensures r.1 != "" <==> HasExt(p)
    ensures r.1 != "" ==> r.1[0] == '.' && forall j :: 1 <= j < |r.1| ==> r.1[j] != '.' && r.1[j] != '/'
  {
    var sep := RFind(p, '/');
    var dot := RFind(p, '.');
    ExtensionTest(p);
    if dot > sep && exists k :: sep < k < dot && p[k] != '.' then
      assert p[..dot] + p[dot..] == p;
      (p[..dot], p[dot..])
    else
      (p, "")
  }

  /** The default `out`: `os.path.splitext(fitsfile)[0] + '.png'`. */
  function DefaultOut(fitsfile: string): (r: string)
    ensures |r| >= 4 && r[|r| - 4..] == ".png"
  {
    SplitExt(fitsfile).0 + ".png"
  }

  /** The default name keeps the directory and replaces only the extension:
      it is the file name with its extension cut off, or the whole name when
      it has none, followed by `.png`. */
  lemma DefaultOutReplacesExtension(p: string)
    ensures HasExt(p) ==> exists e :: e != "" && e[0] == '.' && p == DefaultOut(p)[..|DefaultOut(p)| - 4] + e
    ensures !HasExt(p) ==> DefaultOut(p) == p + ".png"
    ensures forall j :: 0 <= j <= RFind(p, '/') ==> DefaultOut(p)[j] == p[j]
  {
    var (stem, ext) := SplitExt(p);
    DefaultOutStem(p);
    DefaultOutKeepsDirectory(p);
    if ext != "" {
      assert p == stem + ext;
    }
  }

  lemma DefaultOutStem(p: string)
    ensures DefaultOut(p) == SplitExt(p).0 + ".png"
    ensures DefaultOut(p)[..|DefaultOut(p)| - 4] == SplitExt(p).0
  {
  }

  lemma DefaultOutKeepsDirectory(p: string)
    ensures forall j :: 0 <= j <= RFind(p, '/') ==> DefaultOut(p)[j] == p[j]
  {
    var (stem, ext) := SplitExt(p);
    var sep := RFind(p, '/');
    assert sep < |stem| by {
      if ext != "" {
        assert forall i :: |stem| <= i < |p| ==> p[i] == ext[i - |stem|];
      }
    }
    assert forall j :: 0 <= j < |stem| ==> DefaultOut(p)[j] == stem[j] == p[j];
  }

  /** A stem whose last component holds a non-dot character gets `.png`
      as its extension, as `splitext` reads it back. */
  lemma {:induction false} PngSplit(stem: string, k: int)
    requires 0 <= k < |stem| && stem[k] != '.'
    requires forall j :: k <= j < |stem| ==> stem[j] != '/'
    ensures SplitExt(stem + ".png") == (stem, ".png")
  {
    var q := stem + ".png";
    assert forall j :: 0 <= j < |stem| ==> q[j] == stem[j];
    assert q[k] == stem[k] && q[|stem|] == '.';
    assert InLastComponent(q, k);
    assert HasExt(q);
    var (s2, e2) := SplitExt(q);
    assert forall i :: |s2| < i < |q| ==> q[i] == e2[i - |s2|] != '.';
    assert |stem| <= |s2|;
    assert q[|s2|] == e2[0] == '.';
    assert forall i :: |stem| < i < |q| ==> q[i] != '.';
    assert |s2| == |stem|;
    assert s2 == q[..|s2|] == stem;
    assert e2 == q[|s2|..] == ".png";
  }

  /** The default name ends in an extension `.png` that `splitext` itself
      recognises, which is what `savefig` reads to choose the PNG format,
      whenever the file name has a character other than a dot. It follows
      that the default name is its own default name. */
  lemma {:induction false} DefaultOutIsPng(p: string)
    requires exists k :: RFind(p, '/') < k < |p| && p[k] != '.'
    ensures SplitExt(DefaultOut(p)) == (SplitExt(p).0, ".png")
    ensures DefaultOut(DefaultOut(p)) == DefaultOut(p)
  {
    var (stem, e) := SplitExt(p);
    if HasExt(p) {
      var k, d :| 0 <= k < d < |p| && p[k] != '.' && p[d] == '.' && InLastComponent(p, k);
      assert forall i :: |stem| < i < |p| ==> p[i] == e[i - |stem|] != '.';
      assert d <= |stem|;
      assert forall j :: 0 <= j < |stem| ==> stem[j] == p[j];
      PngSplit(stem, k);
    } else {
      var k :| RFind(p, '/') < k < |p| && p[k] != '.';
      assert stem == p;
      PngSplit(stem, k);
    }
  }

  /** The `out` keyword: absent, a path string, a dict of `savefig`
      options holding a file name, or any other value. */
  datatype Out = OutDefault | OutPath(path: string) | OutOptions(filename: string) | OutIgnored

  /** The file the figure is saved as; any `out` that is neither a string
      nor a dict saves nothing. */
  function SavedAs(fitsfile: string, out: Out): (r: Option<string>)
    ensures out.OutDefault? ==> r == Some(DefaultOut(fitsfile))
    ensures out.OutPath? ==> r == Some(out.path)
    ensures out.OutOptions? ==> r == Some(out.filename)
    ensures r.None? <==> out.OutIgnored?
  {
    match out
    case OutDefault => Some(DefaultOut(fitsfile))
    case OutPath(path) => Some(path)
    case OutOptions(filename) => Some(filename)
    case OutIgnored => None
  }
}

=== FILE: spectral.dfy ===
/** `_channel_physical`: converting between a channel number on the spectral
    axis and the physical (velocity or frequency) value at that channel,
    through the linear WCS relation of the header. */
module Spectral {
  import opened Fits
  import opened PyNumeric

  const SpectralUnits: set<string> := {"m/s", "km/s", "Hz", "kHz", "MHz", "GHz"}

  predicate IsSpectralUnit(v: Value) {
    v.Str? && v.s in SpectralUnits
  }

  /** A physical value with its unit tag. */
  datatype Quantity = Quantity(value: real, unit: string)

  /** The linear WCS of the spectral axis: its number, unit, reference value,
      increment and (truncated) reference pixel. */
  datatype SpectralWcs = SpectralWcs(axis: nat, unit: string, crval: real, cdelt: real, crpix: int)

  /** What `_channel_physical` is given: a channel number (`int`), a physical
      value (an astropy quantity, here already in the axis unit), or
      anything else. */
  datatype ChannelArg = ChannelNumber(n: int) | PhysicalValue(v: real) | OtherArg

  datatype Conversion = Conversion(channel: int, physical: Quantity)

  /** The world coordinate of (possibly fractional) pixel `p`. */
  function WorldOf(w: SpectralWcs, p: real): real {
    (p - w.crpix as real) * w.cdelt + w.crval
  }

  /** The pixel coordinate of world value `v`, the inverse of `WorldOf`. */
  function PixelOf(w: SpectralWcs, v: real): real
    requires w.cdelt != 0.0
  {
    (v - w.crval) / w.cdelt + w.crpix as real
  }

  lemma PixelOfWorldOf(w: SpectralWcs, p: real)
    requires w.cdelt != 0.0
    ensures PixelOf(w, WorldOf(w, p)) == p
  {
    assert WorldOf(w, p) - w.crval == (p - w.crpix as real) * w.cdelt;
  }

  /** The 1-based number of the LAST entry of `units` that is a spectral unit
      (entry `j` belongs to axis `j + 1`), as the source's loop leaves
      `freqax` at the last match; `None` when there is none. */
  function LastSpectral(units: seq<Value>): (r: Option<nat>)
    ensures r.Some? ==>
              && 1 <= r.value <= |units|
              && IsSpectralUnit(units[r.value - 1])
              && forall j :: r.value <= j < |units| ==> !IsSpectralUnit(units[j])
    ensures r.None? <==> forall j :: 0 <= j < |units| ==> !IsSpectralUnit(units[j])
  {
    if |units| == 0 then None
    else if IsSpectralUnit(units[|units| - 1]) then Some(|units|)
    else LastSpectral(units[..|units| - 1])
  }

  /** Axis `a` is the last of the header's axes whose `cunit` is spectral. */
  ghost predicate IsLastSpectralAxis(h: Header, a: nat) {
    && Naxis in h && h[Naxis].Int?
    && 1 <= a <= h[Naxis].i
    && Axis(CUNIT, a) in h && IsSpectralUnit(h[Axis(CUNIT, a)])
    && forall i: nat :: a < i <= h[Naxis].i && Axis(CUNIT, i) in h ==> !IsSpectralUnit(h[Axis(CUNIT, i)])
  }

  /** The scan of lines 68-70: reads every `cunit` and reports the last
      spectral axis, or `None` when no axis has a spectral unit. */
  function ScanSpectralAxis(h: Header): (r: Result<Option<nat>>)
    ensures r.Ok? <==>
              Naxis in h && h[Naxis].Int? && forall i: nat :: 1 <= i <= h[Naxis].i ==> Axis(CUNIT, i) in h
    ensures r.Ok? && r.value.Some? ==> IsLastSpectralAxis(h, r.value.value)
    ensures r.Ok? && r.value.None? ==>
              forall i: nat :: 1 <= i <= h[Naxis].i ==> !IsSpectralUnit(h[Axis(CUNIT, i)])
    ensures Naxis !in h ==> r == Err(KeyError(Naxis))
    ensures Naxis in h && !h[Naxis].Int? ==> r == Err(ValueError)
    ensures r.Err? && Naxis in h && h[Naxis].Int? ==>
              exists i: nat :: FirstMissing(h, CUNIT, 1, i) && r.error == KeyError(Axis(CUNIT, i))
  {
    var n :- AxisCount(h);
    var units :- ReadAxes(h, CUNIT, 1, n);
    var found := LastSpectral(units);
    assert forall i: nat :: 1 <= i <= n ==> h[Axis(CUNIT, i)] == units[i - 1];
    Ok(found)
  }

  /** Lines 68-72 as written: when no axis is spectral, `freqax` was never
      bound, so `if not freqax` raises `UnboundLocalError` and the intended
      `TypeError` is never reached. */
  function SpectralAxisAsWritten(h: Header): (r: Result<nat>)
    ensures r.Ok? ==> IsLastSpectralAxis(h, r.value)
    ensures ScanSpectralAxis(h).Err? ==> r == Err(ScanSpectralAxis(h).error)
    ensures ScanSpectralAxis(h).Ok? && ScanSpectralAxis(h).value.Some? ==> r == Ok(ScanSpectralAxis(h).value.value)
    ensures ScanSpectralAxis(h) == Ok(None) ==> r == Err(UnboundLocalError("freqax"))
  {
    match ScanSpectralAxis(h)
    case Err(e) => Err(e)
    case Ok(None) => Err(UnboundLocalError("freqax"))
    case Ok(Some(a)) => Ok(a)
  }

  /** Lines 68-72 as evidently intended: no spectral axis is a `TypeError`. */
  function SpectralAxis(h: Header): (r: Result<nat>)
    ensures r.Ok? ==> IsLastSpectralAxis(h, r.value)
    ensures ScanSpectralAxis(h).Err? ==> r == Err(ScanSpectralAxis(h).error)
    ensures ScanSpectralAxis(h).Ok? && ScanSpectralAxis(h).value.Some? ==> r == Ok(ScanSpectralAxis(h).value.value)
    ensures r == Err(TypeError(NoSpectralAxis)) <==> ScanSpectralAxis(h) == Ok(None)
  {
    match ScanSpectralAxis(h)
    case Err(e) => Err(e)
    case Ok(None) => Err(TypeError(NoSpectralAxis))
    case Ok(Some(a)) => Ok(a)
  }

  /** The `TypeError` of line 72 is dead code as written: no header makes the
      as-written scan raise it, and a header without a spectral axis
      raises `UnboundLocalError` instead. */
  lemma {:induction false} MissingSpectralAxisIsUnbound(h: Header)
    ensures SpectralAxisAsWritten(h) != Err(TypeError(NoSpectralAxis))
    ensures ScanSpectralAxis(h) == Ok(None) ==>
              && SpectralAxisAsWritten(h) == Err(UnboundLocalError("freqax"))
              && SpectralAxis(h) == Err(TypeError(NoSpectralAxis))
  {
    match ScanSpectralAxis(h)
    case Err(e) =>
      assert AxisCount(h).Err? || ReadAxes(h, CUNIT, 1, AxisCount(h).value).Err?;
    case Ok(_) =>
  }

  /** A header whose only axis is in degrees has no spectral axis,
      whatever other cards it holds. */
  lemma DegreeAxisScan(h: Header)
    requires Naxis in h && h[Naxis] == Int(1)
    requires Axis(CUNIT, 1) in h && h[Axis(CUNIT, 1)] == Str("deg")
    ensures ScanSpectralAxis(h) == Ok(None)
  {
    assert AxisCount(h) == Ok(1);
    assert ReadAxes(h, CUNIT, 2, 1) == Ok([]);
    assert [Str("deg")] + [] == [Str("deg")];
    assert ReadAxes(h, CUNIT, 1, 1) == Ok([Str("deg")]);
    assert LastSpectral([Str("deg")]) == None;
  }

  /** A concrete header that shows it: one axis, in degrees. The as-written
      channel conversion raises `UnboundLocalError`, the intended one the
      `TypeError` of line 72. */
  lemma DegreeAxisRaisesUnbound()
    ensures SpectralAxisAsWritten(map[Naxis := Int(1), Axis(CUNIT, 1) := Str("deg")]) == Err(UnboundLocalError("freqax"))
    ensures ChannelPhysical(map[Naxis := Int(1), Axis(CUNIT, 1) := Str("deg")], ChannelNumber(0)) == Err(UnboundLocalError("freqax"))
    ensures ChannelPhysicalIntended(map[Naxis := Int(1), Axis(CUNIT, 1) := Str("deg")], ChannelNumber(0)) == Err(TypeError(NoSpectralAxis))
  {
    var h := map[Naxis := Int(1), Axis(CUNIT, 1) := Str("deg")];
    DegreeAxisScan(h);
    ChannelPhysicalVersions(h, ChannelNumber(0));
  }

  /** The axis search, as written or as intended. */
  function FindSpectralAxis(h: Header, intended: bool): (r: Result<nat>)
    ensures r.Ok? ==> IsLastSpectralAxis(h, r.value)
    ensures !intended ==> r == SpectralAxisAsWritten(h)
    ensures intended ==> r == SpectralAxis(h)
  {
    if intended then SpectralAxis(h) else SpectralAxisAsWritten(h)
  }

  /** The reference cards of axis `a` are present and numeric. */
  ghost predicate HasWcsCards(h: Header, a: nat) {
    && Axis(CRVAL, a) in h && IsNumber(h[Axis(CRVAL, a)])
    && Axis(CDELT, a) in h && IsNumber(h[Axis(CDELT, a)])
    && Axis(CRPIX, a) in h && IsNumber(h[Axis(CRPIX, a)])
  }

  /** Lines 68-75: the spectral axis and its WCS. `crval` and `cdelt` are
      read in that order, then `crpix` truncated toward zero by `int()`. */
  function ReadSpectralWcs(h: Header, intended: bool): (r: Result<SpectralWcs>)
    ensures r.Ok? <==> FindSpectralAxis(h, intended).Ok? && HasWcsCards(h, FindSpectralAxis(h, intended).value)
    ensures r.Ok? ==>
              var w := r.value;
              && w.axis == FindSpectralAxis(h, intended).value
              && IsLastSpectralAxis(h, w.axis)
              && h[Axis(CUNIT, w.axis)] == Str(w.unit)
              && w.crval == AsReal(h[Axis(CRVAL, w.axis)])
              && w.cdelt == AsReal(h[Axis(CDELT, w.axis)])
              && w.crpix == Trunc(AsReal(h[Axis(CRPIX, w.axis)]))
    ensures FindSpectralAxis(h, intended).Err? ==> r == Err(FindSpectralAxis(h, intended).error)
    ensures FindSpectralAxis(h, intended).Ok? ==>
              var a := FindSpectralAxis(h, intended).value;
              && (Axis(CRVAL, a) !in h ==> r == Err(KeyError(Axis(CRVAL, a))))
              && (ReadNumber(h, Axis(CRVAL, a)).Ok? && Axis(CDELT, a) !in h ==> r == Err(KeyError(Axis(CDELT, a))))
              && (ReadNumber(h, Axis(CRVAL, a)).Ok? && ReadNumber(h, Axis(CDELT, a)).Ok? && Axis(CRPIX, a) !in h ==>
                    r == Err(KeyError(Axis(CRPIX, a))))
  {
    var a :- FindSpectralAxis(h, intended);
    var crval :- ReadNumber(h, Axis(CRVAL, a));
    var cdelt :- ReadNumber(h, Axis(CDELT, a));
    var crpix :- ReadNumber(h, Axis(CRPIX, a));
    Ok(SpectralWcs(a, h[Axis(CUNIT, a)].s, crval, cdelt, Trunc(crpix)))
  }

  /** Lines 77-84 for a known WCS. A channel number is kept and its world
      value computed; a physical value is kept and its pixel truncated
      toward zero. With `cdelt == 0` numpy's division yields nan (0/0) or
      infinity, which `int()` rejects with `ValueError` or `OverflowError`. */
  function Convert(w: SpectralWcs, arg: ChannelArg): (r: Result<Conversion>)
    ensures arg.ChannelNumber? ==>
              && r.Ok?
              && r.value.channel == arg.n
              && r.value.physical == Quantity(WorldOf(w, arg.n as real), w.unit)
    ensures arg.PhysicalValue? && w.cdelt != 0.0 ==>
              && r.Ok?
              && r.value.physical == Quantity(arg.v, w.unit)
              && r.value.channel == Trunc(PixelOf(w, arg.v))
    ensures arg.PhysicalValue? && w.cdelt == 0.0 ==>
              r == Err(if arg.v == w.crval then ValueError else OverflowError)
    ensures arg.OtherArg? ==> r == Err(TypeError(ChannelArgument))
  {
    match arg
    case ChannelNumber(n) =>
      Ok(Conversion(n, Quantity((n - w.crpix) as real * w.cdelt + w.crval, w.unit)))
    case PhysicalValue(v) =>
      if w.cdelt == 0.0 then
        Err(if v == w.crval then ValueError else OverflowError)
      else
        Ok(Conversion(Trunc((v - w.crval) / w.cdelt + w.crpix as real), Quantity(v, w.unit)))
    case OtherArg =>
      Err(TypeError(ChannelArgument))
  }

  /** `_channel_physical` as written: the header is read before the
      argument is looked at, so a header error wins over a bad argument,
      and a header without a spectral axis raises `UnboundLocalError`. */
  function ChannelPhysical(h: Header, arg: ChannelArg): (r: Result<Conversion>)
    ensures ReadSpectralWcs(h, false).Err? ==> r == Err(ReadSpectralWcs(h, false).error)
    ensures ReadSpectralWcs(h, false).Ok? ==> r == Convert(ReadSpectralWcs(h, false).value, arg)
  {
    var w :- ReadSpectralWcs(h, false);
    Convert(w, arg)
  }

  /** `_channel_physical` with the `TypeError` of line 72 reachable. */
  function ChannelPhysicalIntended(h: Header, arg: ChannelArg): (r: Result<Conversion>)
    ensures ReadSpectralWcs(h, true).Err? ==> r == Err(ReadSpectralWcs(h, true).error)
    ensures ReadSpectralWcs(h, true).Ok? ==> r == Convert(ReadSpectralWcs(h, true).value, arg)
  {
    var w :- ReadSpectralWcs(h, true);
    Convert(w, arg)
  }

  /** The two versions differ only on a header without a spectral axis:
      there the code as written raises `UnboundLocalError` and the intended
      code `TypeError`. */
  lemma {:induction false} ChannelPhysicalVersions(h: Header, arg: ChannelArg)
    ensures ScanSpectralAxis(h) != Ok(None) ==> ChannelPhysical(h, arg) == ChannelPhysicalIntended(h, arg)
    ensures ScanSpectralAxis(h) == Ok(None) ==>
              && ChannelPhysical(h, arg) == Err(UnboundLocalError("freqax"))
              && ChannelPhysicalIntended(h, arg) == Err(TypeError(NoSpectralAxis))
  {
    if ScanSpectralAxis(h) != Ok(None) {
      assert SpectralAxisAsWritten(h) == SpectralAxis(h);
      assert ReadSpectralWcs(h, false) == ReadSpectralWcs(h, true);
    }
  }

  /** Channel -> physical -> channel is the identity when the increment is
      non-zero, and the physical value is carried through unchanged. */
  lemma {:induction false} ChannelRoundTrip(h: Header, n: int)
    requires ChannelPhysical(h, ChannelNumber(n)).Ok?
    requires ReadSpectralWcs(h, false).value.cdelt != 0.0
    ensures var cp := ChannelPhysical(h, ChannelNumber(n)).value;
            ChannelPhysical(h, PhysicalValue(cp.physical.value)) == Ok(Conversion(n, cp.physical))
  {
    var w := ReadSpectralWcs(h, false).value;
    var cp := Convert(w, ChannelNumber(n)).value;
    PixelOfWorldOf(w, n as real);
    TruncOfInteger(n);
    assert Convert(w, PhysicalValue(cp.physical.value)).value.channel == Trunc(n as real);
  }

  /** Physical -> channel -> physical lands within one increment of the
      value given: truncation moves the pixel by less than one. */
  lemma {:induction false} PhysicalRoundTripWithinOneChannel(h: Header, v: real)
    requires ChannelPhysical(h, PhysicalValue(v)).Ok?
    ensures var w := ReadSpectralWcs(h, false).value;
            var ch := ChannelPhysical(h, PhysicalValue(v)).value.channel;
            var back := ChannelPhysical(h, ChannelNumber(ch)).value.physical.value;
            -Abs(w.cdelt) < back - v < Abs(w.cdelt)
  {
    var w := ReadSpectralWcs(h, false).value;
    assert w.cdelt != 0.0;
    ConvertWithinOneChannel(w, v);
  }

  lemma ConvertWithinOneChannel(w: SpectralWcs, v: real)
    requires w.cdelt != 0.0
    ensures var ch := Convert(w, PhysicalValue(v)).value.channel;
            -Abs(w.cdelt) < WorldOf(w, ch as real) - v < Abs(w.cdelt)
  {
    var p := PixelOf(w, v);
    var ch := Trunc(p);
    var q := (v - w.crval) / w.cdelt;
    assert q * w.cdelt == v - w.crval;
    assert p - w.crpix as real == q;
    var d := ch as real - p;
    assert -1.0 < d < 1.0;
    calc {
      WorldOf(w, ch as real) - v;
      (ch as real - w.crpix as real) * w.cdelt + w.crval - v;
      (d + q) * w.cdelt - q * w.cdelt;
      { DistributeRight(d, q, w.cdelt); }
      d * w.cdelt;
    }
    DeltaTimesStep(d, w.cdelt);
  }

  lemma DistributeRight(a: real, b: real, c: real)
    ensures (a + b) * c - b * c == a * c
  {
  }

  function Abs(x: real): (r: real)
    ensures 0.0 <= r && (r == x || r == -x)
  {
    if x < 0.0 then -x else x
  }

  lemma DeltaTimesStep(d: real, c: real)
    requires -1.0 < d < 1.0 && c != 0.0
    ensures -Abs(c) < d * c < Abs(c)
  {
    if c > 0.0 {
      assert d * c < 1.0 * c;
      assert -1.0 * c < d * c;
    } else {
      assert d * c < (-1.0) * c;
      assert 1.0 * c < d * c;
    }
  }
}

=== FILE: velocity_fix.dfy ===
/** `m_to_km`: rescales the velocity axis of position-velocity FITS images
    from m/s by rewriting their headers. The filesystem is a map from path
    to image; `cp` and `fits.writeto` become map updates. */
module VelocityFix {
  import opened Fits

  /** A FITS image: its primary header and its data, which the correction
      carries over untouched. */
  datatype Image = Image(header: Header, data: seq<real>)

  type FileSystem = map<string, Image>

  const CDelt2: Key := Axis(CDELT, 2)
  const CRval2: Key := Axis(CRVAL, 2)
  const CUnit2: Key := Axis(CUNIT, 2)

  /** The unit the correction writes into `cunit2`. */
  const KmPerSecond: string := "km/s"

  /** The `pv` argument: one path, a list or tuple of paths, or anything else. */
  datatype PvArg = PvPath(path: string) | PvPaths(paths: seq<string>) | PvOther

  /** The `out` argument: `None` (the default), one path, a list or tuple
      whose entries may be `None`, or anything else. */
  datatype OutArg = OutNone | OutPath(path: string) | OutPaths(outs: seq<Option<string>>) | OutOther

  /** One iteration of the loop: the file to read and its `out` entry. */
  datatype Job = Job(source: string, out: Option<string>)

  /** Python's `zip`: as many pairs as the shorter list has entries. */
  function Zip(pvs: seq<string>, outs: seq<Option<string>>): (r: seq<Job>)
    ensures |r| == if |pvs| <= |outs| then |pvs| else |outs|
    ensures forall j :: 0 <= j < |r| ==> r[j] == Job(pvs[j], outs[j])
  {
    if |pvs| == 0 || |outs| == 0 then []
    else [Job(pvs[0], outs[0])] + Zip(pvs[1..], outs[1..])
  }

  /** Lines 99-106 as written: a path with a path is one job, two lists are
      zipped, and every other combination raises `TypeError`, the default
      `out=None` included. */
  function PairJobs(pv: PvArg, out: OutArg): (r: Result<seq<Job>>)
    ensures r.Ok? <==> (pv.PvPath? && out.OutPath?) || (pv.PvPaths? && out.OutPaths?)
    ensures r.Err? ==> r.error == TypeError(InputShape)
    ensures pv.PvPath? && out.OutPath? ==> r == Ok([Job(pv.path, Some(out.path))])
    ensures pv.PvPaths? && out.OutPaths? ==>
              r.Ok? && |r.value| == (if |pv.paths| <= |out.outs| then |pv.paths| else |out.outs|)
              && forall j :: 0 <= j < |r.value| ==> r.value[j] == Job(pv.paths[j], out.outs[j])
  {
    match (pv, out)
    case (PvPath(p), OutPath(o)) => Ok([Job(p, Some(o))])
    case (PvPaths(ps), OutPaths(os)) => Ok(Zip(ps, os))
    case _ => Err(TypeError(InputShape))
  }

  /** The pairing the documentation describes: without `out` every file is
      a job of its own whose copy is named `<pv>.corrected`. */
  function PairJobsIntended(pv: PvArg, out: OutArg): (r: Result<seq<Job>>)
    ensures r.Ok? <==> (pv.PvPath? || pv.PvPaths?) && (out.OutNone? || (pv.PvPath? && out.OutPath?) || (pv.PvPaths? && out.OutPaths?))
    ensures pv.PvPath? && out.OutNone? ==> r == Ok([Job(pv.path, None)])
    ensures pv.PvPaths? && out.OutNone? ==>
              r.Ok? && |r.value| == |pv.paths| && forall j :: 0 <= j < |pv.paths| ==> r.value[j] == Job(pv.paths[j], None)
  {
    match (pv, out)
    case (PvPath(p), OutNone) => Ok([Job(p, None)])
    case (PvPaths(ps), OutNone) => Ok(seq(|ps|, j requires 0 <= j < |ps| => Job(ps[j], None)))
    case _ => PairJobs(pv, out)
  }

  /** `header[k] /= 1e6`: a missing card raises `KeyError`, a string card
      `TypeError`; a number becomes a float. */
  function ScaleCard(h: Header, k: Key): (r: Result<Header>)
    ensures r.Ok? <==> k in h && IsNumber(h[k])
    ensures k !in h ==> r == Err(KeyError(k))
    ensures k in h && !IsNumber(h[k]) ==> r == Err(TypeError(NonNumeric(k)))
    ensures r.Ok? ==> r.value == h[k := Float(AsReal(h[k]) / 1000000.0)]
  {
    if k !in h then Err(KeyError(k))
    else if IsNumber(h[k]) then Ok(h[k := Float(AsReal(h[k]) / 1000000.0)])
    else Err(TypeError(NonNumeric(k)))
  }

  /** `h2` is `h` with the velocity axis rescaled by 1e-6 and relabelled
      km/s, every other card kept. */
  ghost predicate Converted(h: Header, h2: Header)
    requires CDelt2 in h && CRval2 in h && IsNumber(h[CDelt2]) && IsNumber(h[CRval2])
  {
    && h2.Keys == h.Keys + {CUnit2}
    && h2[CDelt2] == Float(AsReal(h[CDelt2]) / 1000000.0)
    && h2[CRval2] == Float(AsReal(h[CRval2]) / 1000000.0)
    && h2[CUnit2] == Str(KmPerSecond)
    && forall k :: k in h && k != CDelt2 && k != CRval2 && k != CUnit2 ==> h2[k] == h[k]
  }

  /** Lines 125-127: `cdelt2` is divided first, then `crval2`, then `cunit2`
      is set. */
  function Rewrite(h: Header): (r: Result<Header>)
    ensures r.Ok? <==> CDelt2 in h && CRval2 in h && IsNumber(h[CDelt2]) && IsNumber(h[CRval2])
    ensures r.Ok? ==> Converted(h, r.value)
    ensures r.Err? && (CDelt2 !in h || !IsNumber(h[CDelt2])) ==> r == ScaleCard(h, CDelt2)
    ensures r.Err? && CDelt2 in h && IsNumber(h[CDelt2]) ==> r.error == ScaleCard(h, CRval2).error
  {
    var h1 :- ScaleCard(h, CDelt2);
    var h2 :- ScaleCard(h1, CRval2);
    Ok(h2[CUnit2 := Str(KmPerSecond)])
  }

  /** The file a job corrects (lines 115-121): the source itself with
      `overwrite`, else its `out` entry, else `<pv>.corrected`. */
  function Target(job: Job, overwrite: bool): (r: string)
    ensures overwrite ==> r == job.source
    ensures !overwrite && job.out.Some? ==> r == job.out.value
    ensures !overwrite && job.out.None? ==> r == job.source + ".corrected"
  {
    if overwrite then job.source
    else if job.out.Some? then job.out.value
    else job.source + ".corrected"
  }

  /** The files after a run, and the exception that ended it, if any. */
  datatype Run = Run(fs: FileSystem, error: Option<Error>)

  /** `fs2` holds the same files as `fs` outside `target`. */
  ghost predicate SameOutside(fs: FileSystem, fs2: FileSystem, target: string) {
    forall p :: p != target ==> (p in fs2 <==> p in fs) && (p in fs ==> fs2[p] == fs[p])
  }

  /** One iteration of the loop (lines 111-133). The source must exist and
      carry `cunit2`. In m/s the source is first copied to the target (a
      no-op when they coincide), then the target's header is rewritten; a
      rewrite that raises leaves the plain copy behind. A unit equal to
      `alreadyKm` is left alone; any other unit raises `TypeError`. */
  function CorrectJob(fs: FileSystem, job: Job, overwrite: bool, alreadyKm: string): (r: Run)
    ensures job.source !in fs ==> r == Run(fs, Some(FileNotFound(job.source)))
    ensures job.source in fs && CUnit2 !in fs[job.source].header ==> r == Run(fs, Some(KeyError(CUnit2)))
    ensures job.source in fs && CUnit2 in fs[job.source].header ==>
              var src := fs[job.source];
              var unit := src.header[CUnit2];
              var target := Target(job, overwrite);
              && (unit == Str("m/s") ==>
                    && SameOutside(fs, r.fs, target)
                    && target in r.fs
                    && r.fs[target].data == src.data
                    && (r.error.None? <==> Rewrite(src.header).Ok?)
                    && (r.error.None? ==> Converted(src.header, r.fs[target].header))
                    && (r.error.Some? ==> r.error == Some(Rewrite(src.header).error) && r.fs[target] == src))
              && (unit != Str("m/s") && unit == Str(alreadyKm) ==> r == Run(fs, None))
              && (unit != Str("m/s") && unit != Str(alreadyKm) ==> r == Run(fs, Some(TypeError(VelocityUnit(unit)))))
  {
    if job.source !in fs then Run(fs, Some(FileNotFound(job.source)))
    else
      var src := fs[job.source];
      if CUnit2 !in src.header then Run(fs, Some(KeyError(CUnit2)))
      else
        var unit := src.header[CUnit2];
        if unit == Str("m/s") then
          var target := Target(job, overwrite);
          var copied := fs[target := src];
          match Rewrite(src.header)
          case Err(e) => Run(copied, Some(e))
          case Ok(h) => Run(copied[target := Image(h, src.data)], None)
        else if unit == Str(alreadyKm) then Run(fs, None)
        else Run(fs, Some(TypeError(VelocityUnit(unit))))
  }

  /** The loop of line 108: the jobs in order, stopping at the first that
      raises. Only the jobs' targets can change. */
  function RunJobs(fs: FileSystem, jobs: seq<Job>, overwrite: bool, alreadyKm: string): (r: Run)
    decreases |jobs|
    ensures |jobs| == 0 ==> r == Run(fs, None)
    ensures |jobs| > 0 && CorrectJob(fs, jobs[0], overwrite, alreadyKm).error.Some? ==>
              r == CorrectJob(fs, jobs[0], overwrite, alreadyKm)
    ensures forall p :: (forall j :: 0 <= j < |jobs| ==> p != Target(jobs[j], overwrite)) ==>
              (p in r.fs <==> p in fs) && (p in fs ==> r.fs[p] == fs[p])
  {
    if |jobs| == 0 then Run(fs, None)
    else
      var first := CorrectJob(fs, jobs[0], overwrite, alreadyKm);
      if first.error.Some? then first
      else
        var rest := RunJobs(first.fs, jobs[1..], overwrite, alreadyKm);
        assert forall j :: 1 <= j < |jobs| ==> jobs[1..][j - 1] == jobs[j];
        rest
  }

  /** A single job runs as one iteration of the loop body. With
      `RunJobsAppend` this makes the loop the in-order fold of `CorrectJob`
      that stops at the first job that raises. */
  lemma {:induction false} RunJobsSingle(fs: FileSystem, job: Job, overwrite: bool, alreadyKm: string)
    ensures RunJobs(fs, [job], overwrite, alreadyKm) == CorrectJob(fs, job, overwrite, alreadyKm)
  {
    var first := CorrectJob(fs, job, overwrite, alreadyKm);
    assert [job][0] == job;
    if first.error.None? {
      assert [job][1..] == [];
      assert RunJobs(first.fs, [], overwrite, alreadyKm) == Run(first.fs, None);
    }
  }

  /** The jobs of a concatenation run as the first part, then, unless it
      raised, the second part on the files it left. */
  lemma {:induction false} RunJobsAppend(fs: FileSystem, a: seq<Job>, b: seq<Job>, overwrite: bool, alreadyKm: string)
    ensures RunJobs(fs, a + b, overwrite, alreadyKm) ==
              var ra := RunJobs(fs, a, overwrite, alreadyKm);
              if ra.error.Some? then ra else RunJobs(ra.fs, b, overwrite, alreadyKm)
    decreases |a|
  {
    if |a| == 0 {
      assert a + b == b;
    } else {
      assert (a + b)[0] == a[0];
      assert (a + b)[1..] == a[1..] + b;
      var first := CorrectJob(fs, a[0], overwrite, alreadyKm);
      if first.error.None? {
        RunJobsAppend(first.fs, a[1..], b, overwrite, alreadyKm);
      }
    }
  }

  /** The value of the test at line 130 as written: a trailing newline that
      no header written by line 127 carries. */
  const AlreadyKmAsWritten: string := "km/s\n"

  /** `m_to_km` as written. */
  function MToKm(fs: FileSystem, pv: PvArg, overwrite: bool, out: OutArg): (r: Run)
    ensures PairJobs(pv, out).Err? ==> r == Run(fs, Some(TypeError(InputShape)))
    ensures PairJobs(pv, out).Ok? ==> r == RunJobs(fs, PairJobs(pv, out).value, overwrite, AlreadyKmAsWritten)
  {
    match PairJobs(pv, out)
    case Err(e) => Run(fs, Some(e))
    case Ok(jobs) => RunJobs(fs, jobs, overwrite, AlreadyKmAsWritten)
  }

  /** `m_to_km` as documented: `out` may be left out, and a header already
      in km/s, as line 127 writes it, is recognised. */
  function MToKmIntended(fs: FileSystem, pv: PvArg, overwrite: bool, out: OutArg): (r: Run)
    ensures PairJobsIntended(pv, out).Err? ==> r == Run(fs, Some(TypeError(InputShape)))
    ensures PairJobsIntended(pv, out).Ok? ==> r == RunJobs(fs, PairJobsIntended(pv, out).value, overwrite, KmPerSecond)
  {
    match PairJobsIntended(pv, out)
    case Err(e) => Run(fs, Some(e))
    case Ok(jobs) => RunJobs(fs, jobs, overwrite, KmPerSecond)
  }

  /** The source is an m/s image whose velocity cards are numbers. */
  ghost predicate Correctable(fs: FileSystem, path: string) {
    && path in fs
    && var h := fs[path].header;
    && CUnit2 in h && h[CUnit2] == Str("m/s")
    && CDelt2 in h && CRval2 in h && IsNumber(h[CDelt2]) && IsNumber(h[CRval2])
  }

  /** A single file with its own `out`: the copy at `out` receives the
      converted header and the source's data, and no other file changes. */
  lemma SingleFileCorrection(fs: FileSystem, pv: string, out: string)
    requires Correctable(fs, pv)
    ensures var r := MToKm(fs, PvPath(pv), false, OutPath(out));
            && r.error.None?
            && out in r.fs && r.fs[out].data == fs[pv].data
            && Converted(fs[pv].header, r.fs[out].header)
            && SameOutside(fs, r.fs, out)
  {
    var job := Job(pv, Some(out));
    assert PairJobs(PvPath(pv), OutPath(out)).value == [job];
    RunJobsSingle(fs, job, false, AlreadyKmAsWritten);
  }

  /** As written: the default `out=None` with a single path raises `TypeError`
      before any file is touched, although the documentation promises a
      `.corrected` copy. */
  lemma DefaultOutRaises(fs: FileSystem, pv: string, overwrite: bool)
    ensures MToKm(fs, PvPath(pv), overwrite, OutNone) == Run(fs, Some(TypeError(InputShape)))
  {
  }

  /** The intended default: an m/s file gets a converted copy at
      `<pv>.corrected`, and the original stays as it was. */
  lemma DefaultOutWritesCorrected(fs: FileSystem, pv: string)
    requires Correctable(fs, pv)
    ensures var r := MToKmIntended(fs, PvPath(pv), false, OutNone);
            var target := pv + ".corrected";
            && r.error.None?
            && target in r.fs && Converted(fs[pv].header, r.fs[target].header)
            && SameOutside(fs, r.fs, target)
            && pv in r.fs && r.fs[pv] == fs[pv]
  {
    var job := Job(pv, None);
    RunJobsSingle(fs, job, false, KmPerSecond);
    assert |pv + ".corrected"| > |pv|;
  }

  /** As written: correcting a file in place and then running again raises,
      because line 127 writes `km/s` while line 130 looks for `km/s\n`. */
  lemma {:induction false} InPlaceTwiceRaises(fs: FileSystem, pv: string, out: string)
    requires Correctable(fs, pv)
    ensures var r1 := MToKm(fs, PvPath(pv), true, OutPath(out));
            && r1.error.None?
            && MToKm(r1.fs, PvPath(pv), true, OutPath(out)) == Run(r1.fs, Some(TypeError(VelocityUnit(Str(KmPerSecond)))))
  {
    var job := Job(pv, Some(out));
    assert PairJobs(PvPath(pv), OutPath(out)).value == [job];
    var first := CorrectJob(fs, job, true, AlreadyKmAsWritten);
    RunJobsSingle(fs, job, true, AlreadyKmAsWritten);
    RunJobsSingle(first.fs, job, true, AlreadyKmAsWritten);
    assert first.fs[pv].header[CUnit2] == Str(KmPerSecond);
  }

  /** The intended correction is idempotent: a second in-place run finds
      km/s and changes nothing. */
  lemma {:induction false} InPlaceTwiceIntended(fs: FileSystem, pv: string)
    requires Correctable(fs, pv)
    ensures var r1 := MToKmIntended(fs, PvPath(pv), true, OutNone);
            && r1.error.None?
            && MToKmIntended(r1.fs, PvPath(pv), true, OutNone) == Run(r1.fs, None)
  {
    var job := Job(pv, None);
    var first := CorrectJob(fs, job, true, KmPerSecond);
    RunJobsSingle(fs, job, true, KmPerSecond);
    RunJobsSingle(first.fs, job, true, KmPerSecond);
    assert first.fs[pv].header[CUnit2] == Str(KmPerSecond);
  }

  /** Wherever the code as written accepts its arguments, the intended
      pairing gives the same jobs. */
  lemma PairingsAgree(pv: PvArg, out: OutArg)
    ensures PairJobs(pv, out).Ok? ==> PairJobsIntended(pv, out) == PairJobs(pv, out)
  {
  }
}
